=== FILE: README.md ===
# nearby-beacons, modelled in Dafny

A model of the beacon-handling core of the Android "nearby-beacons" sample app, with proofs about it. The app finds Eddystone beacons in two ways.

* **`EddystoneScannerService`** scans for Eddystone-UID frames itself. It builds a byte filter and mask for each configured namespace. It sorts scan results by frame type. For each UID frame it records the device address in a read/unread tracker, and it posts a "N new beacons" notification when the unread count grows. The dismiss action marks every tracked address as read.
* **`BeaconService`** receives messages from a Nearby background subscription. It turns each found message into an `OfferBeacon` and keeps the set of offers detected so far. It notifies with the set's size when an offer is added, and removes an offer when its message is lost.

**`BeaconObserverService`** turns a raw advertisement into a "get for observed" request body. The body carries the last 16 bytes of the advertisement as base64. The service then turns the registry's JSON reply into the list of base64-decoded attachment payloads it logs.

## Layout

| file | module | what it holds |
|---|---|---|
| `wrappers.dfy` | `Wrappers`, `Faults` | `Option`, `Result`, and the Java runtime exceptions the code can throw |
| `hex.dfy` | `Hex` | Java bytes, `&`, the `(byte)` cast, `Character.digit(c, 16)`, `%02x` |
| `base64.dfy` | `Base64` | RFC 4648 base64 with padding and no line wrapping, with a round-trip proof |
| `json.dfy` | `JsonTree` | JSON values as a tree, with the `org.json` accessors the code calls |
| `android.dfy` | `Android` | intents, intent extras, notification effects |
| `eddystone_frame.dfy` | `EddystoneFrame` | Eddystone-UID frame layout, namespace filter and mask, namespace id read-back |
| `eddystone_scanner.dfy` | `EddystoneScanner` | frame-type dispatch, the read/unread tracker, `onStartCommand` |
| `beacon_observer.dfy` | `BeaconObserver` | request body, reply parsing, `onHandleIntent` |
| `offer_beacon.dfy` | `OfferBeacons` | the `OfferBeacon` constructor, `equals`, `toString` |
| `beacon_service.dfy` | `BeaconService` | the detected-offer set, `onFound`/`onLost`, `onStartCommand` |

How the model treats the platform:

* Java exceptions are values: `Err(fault)` or an outcome named `Crashed`. They are not preconditions.
* The current time, the HTTP reply, and the callbacks that `Nearby.Messages.handleIntent` would make are parameters.
* The scanner's operations return the count a notification is posted with: an `Option<nat>` for one UID frame, a `seq<nat>` for a batch. The scanner's `onStartCommand` and the whole of `BeaconService` return notifications, their cancellation and `stopSelf` as a list of `Effect`s.

## Model

| member | source | states |
|---|---|---|
| Hex.BitAnd | app/src/main/java/com/example/android/nearbybeacons/EddystoneScannerService.java:170-171 | Masking a byte never raises it: the result is at most either operand. Partnered by `BitAndAllOnes` and `BitAndFullAndEmpty`. |
| Hex.BitAndAllOnes | app/src/main/java/com/example/android/nearbybeacons/EddystoneScannerService.java:72-78 | Masking with a run of one bits at least as wide as the byte keeps the byte (proved by induction over the bits). |
| Hex.BitAndFullAndEmpty | app/src/main/java/com/example/android/nearbybeacons/EddystoneScannerService.java:72-78 | The two mask bytes in use act as intended: `0xFF` keeps a byte whole and `0x00` clears it. |
| Hex.Digit | app/src/main/java/com/example/android/nearbybeacons/EddystoneScannerService.java:64-65 | `Character.digit(c, 16)` lies in -1..15, and is -1 exactly when `c` is not a hex digit. |
| Hex.NibbleChar | app/src/main/java/com/example/android/nearbybeacons/EddystoneScannerService.java:83 | The digit printed for a nibble is a lowercase hex digit that `Digit` reads back as that nibble. |
| Hex.NibbleCharOfDigit | app/src/main/java/com/example/android/nearbybeacons/EddystoneScannerService.java:83 | Reading a hex digit and printing it again gives the digit in lower case. |
| Hex.ToByte | app/src/main/java/com/example/android/nearbybeacons/EddystoneScannerService.java:64 | The `(byte)` cast keeps values in 0..255 unchanged and is congruent to its argument mod 256. |
| Hex.FormatByte | app/src/main/java/com/example/android/nearbybeacons/EddystoneScannerService.java:83 | `%02x` prints two lowercase hex digits whose value is the unsigned byte. |
| Hex.FormatBytes | app/src/main/java/com/example/android/nearbybeacons/EddystoneScannerService.java:81-86 | Bytes printed in order: twice as many characters, and characters `2k..2k+2` are the rendering of byte `k`. |
| Base64.SextetChar | app/src/main/java/com/example/android/nearbybeacons/BeaconObserverService.java:97-98 | Every 6-bit value maps to a base64 alphabet character. |
| Base64.CharSextet | app/src/main/java/com/example/android/nearbybeacons/BeaconObserverService.java:159 | A character has a 6-bit value exactly when it is in the alphabet, and that value maps back to the character. |
| Base64.SextetRoundTrip | app/src/main/java/com/example/android/nearbybeacons/BeaconObserverService.java:159 | Mapping a 6-bit value to its character and back gives the value. |
| Base64.Encode | app/src/main/java/com/example/android/nearbybeacons/BeaconObserverService.java:97-98 | The encoding is `4 * ceil(n / 3)` characters long, all from the alphabet or `=`. Its partners are `RoundTrip` (it decodes back) and `CanonicalPadding` (`=` only as final padding, pad bits zero), the two conditions that section 3.5 of RFC 4648 sets for a canonical encoding. |
| Base64.Decode | app/src/main/java/com/example/android/nearbybeacons/BeaconObserverService.java:159 | Strict decoding succeeds only on text made entirely of alphabet characters and `=`. `RoundTrip` is its partner: it undoes `Encode`. `OfferDataDecodes` pins one known answer. |
| Base64.DecodeWholeQuanta | app/src/main/java/com/example/android/nearbybeacons/BeaconObserverService.java:159 | Decoding succeeds only on a whole number of four-character quanta (proved by induction). |
| Base64.GroupRoundTrip | app/src/main/java/com/example/android/nearbybeacons/BeaconObserverService.java:159 | One encoded group of 1, 2 or 3 bytes decodes back to exactly those bytes. |
| Base64.RoundTrip | app/src/main/java/com/example/android/nearbybeacons/BeaconObserverService.java:159 | Decoding an encoding gives back the original bytes, for every byte sequence (proved by induction). |
| Base64.NoLineBreaks | app/src/main/java/com/example/android/nearbybeacons/BeaconObserverService.java:97-98 | Encoding with `NO_WRAP` never emits a line break. |
| Base64.SixteenBytes | app/src/main/java/com/example/android/nearbybeacons/BeaconObserverService.java:95-98 | A 16-byte beacon id encodes to 24 characters with no line break, and decodes back to itself. |
| Base64.CanonicalPadding | app/src/main/java/com/example/android/nearbybeacons/BeaconObserverService.java:97-98 | The encoding is canonical (section 3.5 of RFC 4648). With no trailing bytes there is no `=`. One trailing byte ends in `==` after a character whose low four bits are zero. Two trailing bytes end in `=` after a character whose low two bits are zero. `=` appears nowhere else (proved by induction). |
| Base64.SixteenBytesCanonical | app/src/main/java/com/example/android/nearbybeacons/BeaconObserverService.java:95-98 | A 16-byte beacon id ends in one `xx==` quantum whose pad bits are zero. |
| JsonTree.AsObject | app/src/main/java/com/example/android/nearbybeacons/BeaconObserverService.java:151 | A reply is accepted exactly when it is a JSON object, and its fields are returned. |
| JsonTree.GetArray | app/src/main/java/com/example/android/nearbybeacons/BeaconObserverService.java:153-155 | `getJSONArray` succeeds exactly when the key holds an array. A missing key is a `MissingKey` error. |
| JsonTree.GetObjectAt | app/src/main/java/com/example/android/nearbybeacons/BeaconObserverService.java:154 | `getJSONObject(i)` succeeds exactly when `i` is in range and that element is an object. An index out of range is reported as such. |
| JsonTree.GetString | app/src/main/java/com/example/android/nearbybeacons/BeaconObserverService.java:158 | `getString` succeeds exactly when the key holds a string. A missing key is a `MissingKey` error. |
| Android.ByteArrayExtra | app/src/main/java/com/example/android/nearbybeacons/BeaconObserverService.java:76 | `getByteArrayExtra` yields bytes exactly when the extra is present and is a byte array, and then yields those bytes. |
| EddystoneFrame.MaskShape | app/src/main/java/com/example/android/nearbybeacons/EddystoneScannerService.java:72-78 | The mask has 18 bytes. Byte 0 (frame type) and bytes 2..11 (namespace) are `0xFF`. Byte 1 (TX power) and bytes 12..17 (instance) are `0x00`. |
| EddystoneFrame.FillFrom | app/src/main/java/com/example/android/nearbybeacons/EddystoneScannerService.java:63-66 | The filter loop succeeds exactly for an even length of at most 32 characters. An odd length of at most 33 throws `StringIndexOutOfBounds(len)`, and a longer string throws `ArrayIndexOutOfBounds(18)`. Each visited pair lands at its own index, and other bytes are untouched. |
| EddystoneFrame.NamespaceFilter | app/src/main/java/com/example/android/nearbybeacons/EddystoneScannerService.java:58-69 | `getNamespaceFilter` fails as `FillFrom` does. On success it yields 18 bytes: zero frame type and TX power, byte `2+k` decoded from characters `2k`, `2k+1`, and zero after the last pair. |
| EddystoneFrame.NamespaceIdFromScan | app/src/main/java/com/example/android/nearbybeacons/EddystoneScannerService.java:80-87 | Succeeds exactly for at least 12 bytes. Otherwise the first index read out of range is reported. On success: 20 lowercase hex digits, pair `k` printing byte `2+k`. |
| EddystoneFrame.FilterIdPair | app/src/main/java/com/example/android/nearbybeacons/EddystoneScannerService.java:58-87 | For a 20-digit hex namespace, the id printed from pair `k` of the built filter is that pair of the namespace, lower-cased. |
| EddystoneFrame.NamespaceRoundTrip | app/src/main/java/com/example/android/nearbybeacons/EddystoneScannerService.java:58-87 | Reading the namespace id back out of a filter built from a 20-digit hex namespace gives the namespace in lower case. |
| EddystoneFrame.FilterWithinMask | app/src/main/java/com/example/android/nearbybeacons/EddystoneScannerService.java:168-172 | A namespace of even length and at most 20 characters builds a filter that the mask leaves unchanged, so the filter and mask form a consistent pair. |
| EddystoneFrame.LongNamespaceSpillsIntoInstance | app/src/main/java/com/example/android/nearbybeacons/EddystoneScannerService.java:58-78 | A 22-character namespace is accepted, but its eleventh byte lands on instance byte 12, which the mask then ignores. |
| EddystoneFrame.MaskedMatch | app/src/main/java/com/example/android/nearbybeacons/EddystoneScannerService.java:168-172 | Under the mask, a frame matches a filter value exactly when its frame type and its namespace bytes equal the value's. |
| EddystoneFrame.MatchesNamespace | app/src/main/java/com/example/android/nearbybeacons/EddystoneScannerService.java:168-172 | A frame matches a 20-character namespace's filter exactly when it is a UID frame whose namespace bytes decode from that namespace. |
| EddystoneFrame.MatchIgnoresTxPowerAndInstance | app/src/main/java/com/example/android/nearbybeacons/EddystoneScannerService.java:72-78 | Two frames that agree on frame type and namespace match the same filters, whatever their TX power and instance bytes. |
| EddystoneScanner.UnreadCount | app/src/main/java/com/example/android/nearbybeacons/EddystoneScannerService.java:213-220 | The unread count is at most the number of tracked addresses, and is zero exactly when every address is read. |
| EddystoneScanner.GetUnreadCount | app/src/main/java/com/example/android/nearbybeacons/EddystoneScannerService.java:213-220 | The loop over the tracker's entries counts exactly the unread addresses. |
| EddystoneScanner.UnreadCountAfterInsert | app/src/main/java/com/example/android/nearbybeacons/EddystoneScannerService.java:198-200 | Tracking a new address as unread raises the unread count by exactly one. |
| EddystoneScanner.ProcessUidPacket | app/src/main/java/com/example/android/nearbybeacons/EddystoneScannerService.java:192-205 | A known address changes nothing and posts nothing. A new address is added as unread, and a notification is posted with the old unread count plus one. Existing flags are kept and no address is dropped. |
| EddystoneScanner.RecordTwice | app/src/main/java/com/example/android/nearbybeacons/EddystoneScannerService.java:198-204 | The same address seen twice notifies on the first sighting only. |
| EddystoneScanner.MarkAllRead | app/src/main/java/com/example/android/nearbybeacons/EddystoneScannerService.java:207-211 | The same addresses, all marked read, so the unread count is zero. |
| EddystoneScanner.MarkAllReadSettles | app/src/main/java/com/example/android/nearbybeacons/EddystoneScannerService.java:198-211 | Marking is idempotent, and after it a known address posts no notification. |
| EddystoneScanner.Classify | app/src/main/java/com/example/android/nearbybeacons/EddystoneScannerService.java:244-275 | A result is dropped as `InvalidRecord` exactly when it has no record, and as `MissingServiceData` exactly when its record has no Eddystone service data. Empty service data, and only that, throws `ArrayIndexOutOfBounds(0)`. Otherwise the type byte `data[0]` decides. `0x00` goes on with the device's address, RSSI and packet. `0x10` and `0x20` are ignored. Any other type is logged. |
| EddystoneScanner.ProcessResult | app/src/main/java/com/example/android/nearbybeacons/EddystoneScannerService.java:244-275 | A result fails exactly when its dispatch does, with the same fault: reading the type byte of empty service data is `ArrayIndexOutOfBounds(0)`. Only UID frames reach `processUidPacket`, and every other result leaves the tracker as it was. |
| EddystoneScanner.ProcessBatch | app/src/main/java/com/example/android/nearbybeacons/EddystoneScannerService.java:238-242 | A batch ends without a fault exactly when every result in it can be classified. Tracked addresses keep their flags and the tracker grows by one address per notification posted. Every notification count is at least 1. `BatchPostsUnreadCounts` gives the exact counts and the unread flag of new addresses. |
| EddystoneScanner.BatchTracksUidAddresses | app/src/main/java/com/example/android/nearbybeacons/EddystoneScannerService.java:238-242 | After a batch without a fault, the tracked addresses are the earlier ones plus the addresses of the batch's UID frames, and no others (proved by induction). |
| EddystoneScanner.BatchStopsAtFirstFault | app/src/main/java/com/example/android/nearbybeacons/EddystoneScannerService.java:238-242 | A faulting batch reports the fault of its first result that cannot be classified, and every earlier result could be classified (proved by induction). |
| EddystoneScanner.BatchPostsUnreadCounts | app/src/main/java/com/example/android/nearbybeacons/EddystoneScannerService.java:192-205 | Every address a batch starts tracking is unread. The `k`-th notification posts the starting unread count plus `k + 1`, the count `getUnreadCount` gives right after each insert (proved by induction). |
| EddystoneScanner.OnStartCommand | app/src/main/java/com/example/android/nearbybeacons/EddystoneScannerService.java:118-126 | A null intent throws `NullPointerException`. The dismiss action marks everything read and cancels the notification. Any other action changes nothing. No address is added or dropped. |
| BeaconObserver.ObservedId | app/src/main/java/com/example/android/nearbybeacons/BeaconObserverService.java:95-98 | Succeeds exactly for an advertisement of at least 16 bytes, and otherwise reports the negative offset. On success: 24 characters, no line break, decoding to the last 16 bytes, and canonical, ending in `xx==` with zero pad bits. |
| BeaconObserver.ObservedBody | app/src/main/java/com/example/android/nearbybeacons/BeaconObserverService.java:93-111 | The request asks for the given namespace and carries exactly one Eddystone observation, whose id is the encoded advertised id and whose `timestampMs` is the given time. The body holds `observations` and `namespacedTypes` and nothing else. |
| BeaconObserver.SingleObservation | app/src/main/java/com/example/android/nearbybeacons/BeaconObserverService.java:102-110 | A body built around one Eddystone observation reads back as that namespace, that one id and that one timestamp. |
| BeaconObserver.RequestCarriesAdvertisedId | app/src/main/java/com/example/android/nearbybeacons/BeaconObserverService.java:93-111 | The single id in the request decodes back to the last 16 bytes of the advertisement. |
| BeaconObserver.DecodeAttachment | app/src/main/java/com/example/android/nearbybeacons/BeaconObserverService.java:158-159 | One attachment succeeds exactly when it is an object with a base64 `data` string, and then yields the decoded payload. A non-object element is `ElementNotObject(i)`. A missing `data` is `MissingKey`, and a non-string `data` is `TypeMismatch`; both are JSON errors. A string that does not decode is `BadBase64(i)`. |
| BeaconObserver.DecodeFrom | app/src/main/java/com/example/android/nearbybeacons/BeaconObserverService.java:157-161 | The loop succeeds exactly when every remaining attachment decodes, and then yields one payload per attachment. |
| BeaconObserver.DecodeFromPayloads | app/src/main/java/com/example/android/nearbybeacons/BeaconObserverService.java:157-161 | Payloads come in array order: the `k`-th one is the decoded `data` of attachment `from + k` (proved by induction). |
| BeaconObserver.DecodeFromFirstError | app/src/main/java/com/example/android/nearbybeacons/BeaconObserverService.java:157-161 | A failing loop reports the error of the first attachment that fails, after every earlier one succeeded (proved by induction). |
| BeaconObserver.FirstBeaconAttachments | app/src/main/java/com/example/android/nearbybeacons/BeaconObserverService.java:151-155 | A reply that is not an object is `NotAnObject`. A missing `beacons` is `MissingKey`, a non-array `beacons` is `TypeMismatch`, and an empty `beacons` array is `IndexOutOfRange(0)`. Otherwise, if element 0 is an object, the result is exactly `getJSONArray("attachments")` of it, so a missing `attachments` is `MissingKey("attachments")`. If element 0 is not an object, the result is `ElementNotObject(0)`. |
| BeaconObserver.ParseAttachments | app/src/main/java/com/example/android/nearbybeacons/BeaconObserverService.java:148-164 | Errors in reaching the attachments are passed through as JSON errors. Parsing succeeds exactly when every attachment of the first beacon decodes, and then yields one payload per attachment, in order. Otherwise the error is that of the first failing attachment: a JSON error, or `BadBase64` for undecodable data. |
| BeaconObserver.ReplyRoundTrip | app/src/main/java/com/example/android/nearbybeacons/BeaconObserverService.java:148-164 | Parsing a reply that lists any payloads base64-encoded gives back exactly those payloads. |
| BeaconObserver.OnlyFirstBeaconRead | app/src/main/java/com/example/android/nearbybeacons/BeaconObserverService.java:153-155 | Beacons after the first one in a reply do not affect the result. |
| BeaconObserver.OfferDataDecodes | app/src/main/java/com/example/android/nearbybeacons/BeaconObserverService.java:159 | `b2ZmZXI=` decodes to the five bytes of "offer". |
| BeaconObserver.OfferExample | app/src/main/java/com/example/android/nearbybeacons/BeaconObserverService.java:148-164 | A reply with one attachment holding `b2ZmZXI=` parses to the single payload "offer". |
| BeaconObserver.HandleIntent | app/src/main/java/com/example/android/nearbybeacons/BeaconObserverService.java:70-91 | Returns at once exactly for a null intent or one without the id extra. A request is built exactly for a byte array of at least 16 bytes. An extra that is not a byte array crashes with `NullPointerException`, and a shorter array with `ArrayIndexOutOfBounds` at the negative offset. With a request: attachments are logged exactly when the reply parses. A JSON error is logged exactly when the reply text is not JSON or its parse fails with a JSON error. An I/O error is logged exactly when the post fails. Undecodable data crashes with `IllegalArgumentException`. |
| BeaconObserver.ObservedReplyLogged | app/src/main/java/com/example/android/nearbybeacons/BeaconObserverService.java:70-91 | For any advertisement of at least 16 bytes and any reply listing some payloads, the service posts the observed body and logs exactly those payloads. |
| OfferBeacons.FromMessage | app/src/main/java/com/example/android/nearbybeacons/OfferBeacon.java:15-29 | A type other than "offer" is `IncorrectType`. Content without string `section` and `latest_offer` fields is `InvalidJsonContents`. Otherwise the two fields become the offer. |
| OfferBeacons.MessageRoundTrip | app/src/main/java/com/example/android/nearbybeacons/OfferBeacon.java:15-29 | The message an offer publishes constructs that same offer again. |
| OfferBeacons.Equals | app/src/main/java/com/example/android/nearbybeacons/OfferBeacon.java:31-35 | True exactly for another offer with an equal section. Never true for null. |
| OfferBeacons.ToString | app/src/main/java/com/example/android/nearbybeacons/OfferBeacon.java:37-40 | `toString` prints the `section` field of the message the offer publishes. `EqualsAgreesWithToString` is its partner: two offers print the same exactly when they are equal. |
| OfferBeacons.EqualsAgreesWithToString | app/src/main/java/com/example/android/nearbybeacons/OfferBeacon.java:31-40 | Two offers are equal exactly when they print the same, and the offer text plays no part. |
| OfferBeacons.EqualsIsEquivalence | app/src/main/java/com/example/android/nearbybeacons/OfferBeacon.java:31-35 | `equals` is reflexive, symmetric and transitive. |
| BeaconService.Add | app/src/main/java/com/example/android/nearbybeacons/BeaconService.java:99 | The offer is added exactly when its section is new, and the size then grows by one. The sections become the old ones plus this one, and distinct sections stay distinct. |
| BeaconService.Remove | app/src/main/java/com/example/android/nearbybeacons/BeaconService.java:109 | Only the lost offer's section is removed. Every other offer stays, and distinct sections stay distinct. |
| BeaconService.RemoveDropsAtMostOne | app/src/main/java/com/example/android/nearbybeacons/BeaconService.java:109 | With distinct sections, losing an offer removes at most one element, and removes exactly that offer when it is tracked. |
| BeaconService.OnFound | app/src/main/java/com/example/android/nearbybeacons/BeaconService.java:96-103 | A rejected message fails. A known section changes nothing. A new offer is added and the notification is posted with the new size, which is at least 1. |
| BeaconService.OnLost | app/src/main/java/com/example/android/nearbybeacons/BeaconService.java:106-110 | A rejected message fails. Otherwise the lost section is gone and every other offer stays. |
| BeaconService.Deliver | app/src/main/java/com/example/android/nearbybeacons/BeaconService.java:94-111 | Callbacks keep sections distinct. Every effect is a notification with a count of at least 1. A run ends without a fault exactly when every message is an offer. |
| BeaconService.DeliverOne | app/src/main/java/com/example/android/nearbybeacons/BeaconService.java:94-111 | One callback does what `onFound` or `onLost` does to the set, posts what `onFound` posts, and fails with the constructor's error for a message that is not an offer. |
| BeaconService.DeliverAppend | app/src/main/java/com/example/android/nearbybeacons/BeaconService.java:94-111 | Callbacks run in order: delivering `a + b` delivers `a`, then delivers `b` from the set `a` left, and the effects of `b` follow those of `a`. A rejection in `a` ends the run before `b`. |
| BeaconService.Step | app/src/main/java/com/example/android/nearbybeacons/BeaconService.java:94-111 | One callback fails exactly when its message is not an offer, with the constructor's error. |
| BeaconService.DeliverIsRun | app/src/main/java/com/example/android/nearbybeacons/BeaconService.java:94-111 | `Deliver` is the in-order run of `Step` over the callbacks (proved by induction). |
| BeaconService.RunAppend | app/src/main/java/com/example/android/nearbybeacons/BeaconService.java:94-111 | The same order law for any step function (proved by induction); `DeliverIsRun` connects it to `Deliver`. |
| BeaconService.DeliverStopsAtFirstRejection | app/src/main/java/com/example/android/nearbybeacons/BeaconService.java:94-111 | A rejected run reports the error of its first message that is not an offer, and every earlier message was an offer (proved by induction). |
| BeaconService.OnStartCommand | app/src/main/java/com/example/android/nearbybeacons/BeaconService.java:47-58 | A null intent does nothing. Dismiss cancels the notification and stops the service, leaving the set alone. Any other intent delivers Nearby's callbacks. Sections stay distinct throughout. |
| BeaconService.InitialDetectedIsEmpty | app/src/main/java/com/example/android/nearbybeacons/BeaconService.java:43 | The service starts from an empty set, which trivially has distinct sections. |
| BeaconService.HashSetAdd | app/src/main/java/com/example/android/nearbybeacons/BeaconService.java:99 | `HashSet.add` under identity hashes: it adds exactly when no stored element has the same hash and is equal. |
| BeaconService.HashSetRemove | app/src/main/java/com/example/android/nearbybeacons/BeaconService.java:109 | `HashSet.remove` under identity hashes removes exactly the stored elements with the same hash that are equal, and keeps every other element. |
| BeaconService.AsWrittenKeepsDuplicateSections | app/src/main/java/com/example/android/nearbybeacons/BeaconService.java:99-101 | Two equal offers for one section, as fresh objects, are both added, and the set counts two. |
| BeaconService.AsWrittenRemoveMisses | app/src/main/java/com/example/android/nearbybeacons/BeaconService.java:109 | A fresh object whose identity hash matches no stored element removes nothing. |
| BeaconService.CorrectedKeepsOneOfferPerSection | app/src/main/java/com/example/android/nearbybeacons/BeaconService.java:99-101 | Under section equality the second offer for "shoes" is recognised and not added. |

## Left out

* Bluetooth scanning, scan settings and the platform's matching of a `ScanFilter` are left out; they are platform code. `EddystoneFrame.Matches` states the masked comparison that a filter and mask describe.
* Building and posting notifications, `Log` calls and the `DEBUG_SCAN` logging branch are left out. Notifications appear only as `Effect` values, and logging has no effect on state.
* The HTTP POST to the Proximity Beacon API, reading the response line by line, and the JSON text parser are left out because they are I/O and library code. The reply arrives as a `Reply` parameter: a JSON tree, text that is not JSON, or an I/O failure.
* The observation timestamp (`SimpleDateFormat` of the current time) is a parameter.
* `Nearby.Messages.handleIntent` is a library call. The callbacks it would make arrive as a `Callback` sequence parameter.
* The main-thread `Handler` hand-off in `processResult` is modelled as handling results in order, one after another. The service lifecycle (`onCreate`, `onDestroy`, `onBind`) and `MainActivity` are left out.
* Hex.Digit: covers ASCII only. `Character.digit` also accepts Unicode decimal digits and full-width Latin letters, and those are not modelled.
* Hex.ToLower: lower-cases ASCII letters only, which is all that `%02x` output and a hex namespace can contain.
* Base64.Decode: modelled as the strict decoder of RFC 4648, which needs padding and rejects any character outside the alphabet. Android's `Base64.decode` skips every character outside the alphabet other than `=`, and accepts missing padding. The model rejects text that Android accepts, so some `BadBase64` outcomes would decode on a device.
* JsonTree.GetString: does not model `org.json` turning every present, non-null value into a string. Android's `getString` returns the text of a number, a boolean, a nested object or array, and "null" for JSON null. In the model any value that is not a string is a `TypeMismatch`.
* OfferBeacons.FromMessage: because of the `GetString` choice above, a `section` or `latest_offer` that is not a JSON string is rejected as invalid contents, where the device would build an offer from its text.
* BeaconObserver.DecodeAttachment: because of the `GetString` choice above, a `data` value that is not a JSON string is `TypeMismatch("data")`, where the device would try to base64-decode its text.
* EddystoneScanner.ProcessBatch: after a fault the model keeps the updates of earlier results and stops. On a device the exception escapes the scan callback, and an uncaught exception ends the app's process by default. The updates already posted to the main thread may then never run, and no later state is observable.
* BeaconObserver.ParseAttachments: yields payload bytes. The source turns them into a `String` with the platform charset, which is not modelled.

## Behaviour of the code worth noting

These behaviours of the code may be unexpected. The model follows the code in each case.

* `getNamespaceFilter` accepts any even length up to 32 characters, not only 20. Namespaces of 22 to 32 characters write into the instance bytes; see `LongNamespaceSpillsIntoInstance`.
* A non-hex character is not an error: it silently becomes digit -1.
* An advertisement shorter than 16 bytes makes the encoder read out of bounds. This `ArrayIndexOutOfBoundsException` is not caught.
* A `data` string that is not base64 throws `IllegalArgumentException`, which `onHandleIntent` does not catch; the model's outcome is `Crashed`. Only `JSONException` and `IOException` are logged.
* `onStartCommand` of the scanner service has no null check, so a null intent throws there.

## Findings

| source | as written | input that shows it | evidently intended | confidence | as-written member | corrected member |
|---|---|---|---|---|---|---|
| app/src/main/java/com/example/android/nearbybeacons/OfferBeacon.java:31-35 | `equals` is overridden but `hashCode` is not. The `HashSet` in BeaconService.java:34 therefore files each new `OfferBeacon` under its identity hash, and `add` and `remove` almost never see an equal element. | Two `onFound` calls for messages with section "shoes" (two objects with hashes 1 and 2): both are added and the count is 2. An `onLost` for "shoes" then removes nothing. | One tracked offer per section: a second offer for a known section is not added, and `onLost` removes the offer with that section. | not executed | BeaconService.HashSetAdd, BeaconService.HashSetRemove, BeaconService.AsWrittenKeepsDuplicateSections, BeaconService.AsWrittenRemoveMisses | BeaconService.Add, BeaconService.Remove, BeaconService.CorrectedKeepsOneOfferPerSection |

=== FILE: android.dfy ===
/**
 * The few platform values the services exchange with Android: the intents
 * they are started with and the notification effects they request.
 */
module Android {
  import opened Wrappers
  import opened Hex

  /** The value stored under an intent extra: a byte array, or something else. */
  datatype Extra = ByteArray(bytes: seq<byte>) | OtherValue

  datatype Intent = Intent(action: Option<string>, extras: map<string, Extra>)

  /** What a service asks of the platform after handling an event. */
  datatype Effect =
    | PostNotification(count: nat)
    | CancelNotification
    | StopSelf

  /** `Intent.getByteArrayExtra`: the bytes under `key`, or `null` when absent or not a byte array. */
  function ByteArrayExtra(intent: Intent, key: string): (r: Option<seq<byte>>)
    ensures r.Some? <==> key in intent.extras && intent.extras[key].ByteArray?
    ensures r.Some? ==> r.value == intent.extras[key].bytes
  {
    if key in intent.extras && intent.extras[key].ByteArray? then Some(intent.extras[key].bytes) else None
  }

  /** `ACTION.equals(intent.getAction())`: false for an intent without an action. */
  predicate HasAction(intent: Intent, action: string) {
    intent.action == Some(action)
  }
}

=== FILE: base64.dfy ===
/**
 * Base64 in the standard alphabet of section 4 of RFC 4648, with `=`
 * padding and no line breaks: the `NO_WRAP` encoding the observer uses for
 * beacon ids and attachment payloads.
 */
module Base64 {
  import opened Wrappers
  import opened Hex

  predicate IsAlphabetChar(c: char) {
    'A' <= c <= 'Z' || 'a' <= c <= 'z' || '0' <= c <= '9' || c == '+' || c == '/'
  }

  /** The alphabet character for a 6-bit value (table 1 of RFC 4648). */
  function SextetChar(v: int): (c: char)
    requires 0 <= v < 64
    ensures IsAlphabetChar(c)
  {
    if v < 26 then ('A' as int + v) as char
    else if v < 52 then ('a' as int + v - 26) as char
    else if v < 62 then ('0' as int + v - 52) as char
    else if v == 62 then '+'
    else '/'
  }

  /** The 6-bit value of an alphabet character; `None` for anything else, `=` included. */
  function CharSextet(c: char): (r: Option<int>)
    ensures r.Some? <==> IsAlphabetChar(c)
    ensures r.Some? ==> 0 <= r.value < 64 && SextetChar(r.value) == c
  {
    if 'A' <= c <= 'Z' then Some(c as int - 'A' as int)
    else if 'a' <= c <= 'z' then Some(c as int - 'a' as int + 26)
    else if '0' <= c <= '9' then Some(c as int - '0' as int + 52)
    else if c == '+' then Some(62)
    else if c == '/' then Some(63)
    else None
  }

  lemma SextetRoundTrip(v: int)
    requires 0 <= v < 64
    ensures CharSextet(SextetChar(v)) == Some(v)
  {
  }

  /** The four characters for three bytes; a shorter tail fills the missing sextets with `=`. */
  function EncodeGroup(b0: byte, b1: byte, b2: byte, n: int): (s: string)
    requires 1 <= n <= 3
  {
    var c0 := SextetChar(b0 as int / 4);
    var c1 := SextetChar((b0 as int % 4) * 16 + b1 as int / 16);
    var c2 := SextetChar((b1 as int % 16) * 4 + b2 as int / 64);
    var c3 := SextetChar(b2 as int % 64);
    if n == 1 then [c0, c1, '=', '=']
    else if n == 2 then [c0, c1, c2, '=']
    else [c0, c1, c2, c3]
  }

  /** `Base64.encodeToString(bytes, NO_WRAP)`. */
  function Encode(bs: seq<byte>): (s: string)
    ensures |s| == 4 * ((|bs| + 2) / 3)
    ensures forall i :: 0 <= i < |s| ==> IsAlphabetChar(s[i]) || s[i] == '='
    decreases |bs|
  {
    if |bs| == 0 then ""
    else if |bs| == 1 then EncodeGroup(bs[0], 0, 0, 1)
    else if |bs| == 2 then EncodeGroup(bs[0], bs[1], 0, 2)
    else EncodeGroup(bs[0], bs[1], bs[2], 3) + Encode(bs[3..])
  }

  /** Three bytes from four sextets; with `n < 3` only the first `n` are kept. */
  function DecodeGroup(v0: int, v1: int, v2: int, v3: int, n: int): (bs: seq<byte>)
    requires 0 <= v0 < 64 && 0 <= v1 < 64 && 0 <= v2 < 64 && 0 <= v3 < 64
    requires 1 <= n <= 3
    ensures |bs| == n
  {
    var b0 := (v0 * 4 + v1 / 16) as byte;
    var b1 := ((v1 % 16) * 16 + v2 / 4) as byte;
    var b2 := ((v2 % 4) * 64 + v3) as byte;
    if n == 1 then [b0] else if n == 2 then [b0, b1] else [b0, b1, b2]
  }

  /** The last quantum: four alphabet characters, or `xx==` / `xxx=` for one or two bytes. */
  function DecodeFinal(q: string): (r: Option<seq<byte>>)
    requires |q| == 4
    ensures r.Some? ==> 1 <= |r.value| <= 3
    ensures r.Some? ==> IsAlphabetChar(q[0]) && IsAlphabetChar(q[1])
    ensures r.Some? ==> (IsAlphabetChar(q[2]) || q[2] == '=') && (IsAlphabetChar(q[3]) || q[3] == '=')
  {
    var s0, s1, s2, s3 := CharSextet(q[0]), CharSextet(q[1]), CharSextet(q[2]), CharSextet(q[3]);
    if s0.None? || s1.None? then None
    else if q[2] == '=' && q[3] == '=' then Some(DecodeGroup(s0.value, s1.value, 0, 0, 1))
    else if s2.None? then None
    else if q[3] == '=' then Some(DecodeGroup(s0.value, s1.value, s2.value, 0, 2))
    else if s3.None? then None
    else Some(DecodeGroup(s0.value, s1.value, s2.value, s3.value, 3))
  }

  /** An inner quantum: four alphabet characters, no padding. */
  function DecodeFull(q: string): (r: Option<seq<byte>>)
    requires |q| == 4
    ensures r.Some? ==> |r.value| == 3
    ensures r.Some? ==> forall i :: 0 <= i < 4 ==> IsAlphabetChar(q[i])
  {
    var s0, s1, s2, s3 := CharSextet(q[0]), CharSextet(q[1]), CharSextet(q[2]), CharSextet(q[3]);
    if s0.None? || s1.None? || s2.None? || s3.None? then None
    else Some(DecodeGroup(s0.value, s1.value, s2.value, s3.value, 3))
  }

  /**
   * Decoding of padded base64 text: whole four-character quanta, padding only
   * in the last one. `None` stands for the decoder's "bad base-64" exception.
   */
  function Decode(s: string): (r: Option<seq<byte>>)
    ensures r.Some? ==> forall i :: 0 <= i < |s| ==> IsAlphabetChar(s[i]) || s[i] == '='
    decreases |s|
  {
    if |s| == 0 then Some([])
    else if |s| < 4 then None
    else if |s| == 4 then DecodeFinal(s)
    else
      var head := DecodeFull(s[..4]);
      var tail := Decode(s[4..]);
      if head.Some? && tail.Some? then
        assert forall i :: 0 <= i < 4 ==> s[..4][i] == s[i];
        assert forall i :: 4 <= i < |s| ==> s[4..][i - 4] == s[i];
        Some(head.value + tail.value)
      else None
  }

  /** Decoding succeeds only on whole four-character quanta. */
  lemma {:induction false} DecodeWholeQuanta(s: string)
    ensures Decode(s).Some? ==> |s| % 4 == 0
    decreases |s|
  {
    if |s| > 4 && Decode(s).Some? {
      var tail := s[4..];
      DecodeWholeQuanta(tail);
      assert Decode(tail).Some?;
      assert |s| == |tail| + 4;
    }
  }

  /** The sextets of three bytes give the bytes back. */
  lemma SextetArithmetic(b0: byte, b1: byte, b2: byte)
    ensures var v0, v1, v2, v3 := b0 as int / 4, (b0 as int % 4) * 16 + b1 as int / 16, (b1 as int % 16) * 4 + b2 as int / 64, b2 as int % 64;
      && 0 <= v0 < 64 && 0 <= v1 < 64 && 0 <= v2 < 64 && 0 <= v3 < 64
      && DecodeGroup(v0, v1, v2, v3, 3) == [b0, b1, b2]
  {
  }

  /** One group encodes to characters that decode back to the group's bytes. */
  lemma GroupRoundTrip(b0: byte, b1: byte, b2: byte, n: int)
    requires 1 <= n <= 3
    ensures n == 3 ==> DecodeFull(EncodeGroup(b0, b1, b2, n)) == Some([b0, b1, b2])
    ensures n == 1 ==> DecodeFinal(EncodeGroup(b0, b1, b2, n)) == Some([b0])
    ensures n == 2 ==> DecodeFinal(EncodeGroup(b0, b1, b2, n)) == Some([b0, b1])
    ensures n == 3 ==> DecodeFinal(EncodeGroup(b0, b1, b2, n)) == Some([b0, b1, b2])
  {
    var v0, v1, v2, v3 := b0 as int / 4, (b0 as int % 4) * 16 + b1 as int / 16, (b1 as int % 16) * 4 + b2 as int / 64, b2 as int % 64;
    SextetArithmetic(b0, b1, b2);
    SextetRoundTrip(v0);
    SextetRoundTrip(v1);
    SextetRoundTrip(v2);
    SextetRoundTrip(v3);
    var q := EncodeGroup(b0, b1, b2, n);
    assert q[0] == SextetChar(v0) && q[1] == SextetChar(v1);
    if n == 1 {
      assert DecodeFinal(q) == Some(DecodeGroup(v0, v1, 0, 0, 1));
    } else if n == 2 {
      assert q[2] == SextetChar(v2) && q[3] == '=';
      assert DecodeFinal(q) == Some(DecodeGroup(v0, v1, v2, 0, 2));
    } else {
      assert q[2] == SextetChar(v2) && q[3] == SextetChar(v3);
      assert DecodeFinal(q) == Some(DecodeGroup(v0, v1, v2, v3, 3));
    }
  }

  /** A full quantum in front of decodable text decodes to its bytes in front. */
  lemma DecodePrefix(head: string, tail: string, hb: seq<byte>, tb: seq<byte>)
    requires |head| == 4 && |tail| > 0
    requires DecodeFull(head) == Some(hb) && Decode(tail) == Some(tb)
    ensures Decode(head + tail) == Some(hb + tb)
  {
    var s := head + tail;
    assert s[..4] == head && s[4..] == tail;
  }

  /** One trailing byte encodes to `xx==`, which decodes back to it. */
  lemma OneByteRoundTrip(bs: seq<byte>)
    requires |bs| == 1
    ensures Decode(Encode(bs)) == Some(bs)
  {
    GroupRoundTrip(bs[0], 0, 0, 1);
    assert Encode(bs) == EncodeGroup(bs[0], 0, 0, 1);
    assert [bs[0]] == bs;
  }

  /** Two trailing bytes encode to `xxx=`, which decodes back to them. */
  lemma TwoByteRoundTrip(bs: seq<byte>)
    requires |bs| == 2
    ensures Decode(Encode(bs)) == Some(bs)
  {
    GroupRoundTrip(bs[0], bs[1], 0, 2);
    assert Encode(bs) == EncodeGroup(bs[0], bs[1], 0, 2);
    assert [bs[0], bs[1]] == bs;
  }

  /** Three trailing bytes encode to one unpadded quantum, which decodes back to them. */
  lemma ThreeByteRoundTrip(bs: seq<byte>)
    requires |bs| == 3
    ensures Decode(Encode(bs)) == Some(bs)
  {
    GroupRoundTrip(bs[0], bs[1], bs[2], 3);
    assert Encode(bs) == EncodeGroup(bs[0], bs[1], bs[2], 3) + Encode([]);
    assert [bs[0], bs[1], bs[2]] == bs;
  }

  lemma SplitThree(bs: seq<byte>)
    requires |bs| >= 3
    ensures [bs[0], bs[1], bs[2]] + bs[3..] == bs
  {
  }

  /** Decoding an encoding gives back the original bytes. */
  lemma {:induction false} RoundTrip(bs: seq<byte>)
    ensures Decode(Encode(bs)) == Some(bs)
    decreases |bs|
  {
    if |bs| == 0 {
    } else if |bs| == 1 {
      OneByteRoundTrip(bs);
    } else if |bs| == 2 {
      TwoByteRoundTrip(bs);
    } else if |bs| == 3 {
      ThreeByteRoundTrip(bs);
    } else {
      var head := EncodeGroup(bs[0], bs[1], bs[2], 3);
      assert Encode(bs) == head + Encode(bs[3..]);
      GroupRoundTrip(bs[0], bs[1], bs[2], 3);
      RoundTrip(bs[3..]);
      DecodePrefix(head, Encode(bs[3..]), [bs[0], bs[1], bs[2]], bs[3..]);
      SplitThree(bs);
    }
  }

  /**
   * Canonical padded text for a byte count leaving `tail` bytes in the last
   * group (section 3.5 of RFC 4648): `=` appears only as the padding of the
   * last quantum, and the bits of the last character before the padding
   * that no byte fills are zero.
   */
  predicate Canonical(s: string, tail: int)
  {
    if tail == 0 then '=' !in s
    else if tail == 1 then
      && |s| >= 4 && s[|s| - 2..] == "=="
      && (forall i :: 0 <= i < |s| - 2 ==> s[i] != '=')
      && CharSextet(s[|s| - 3]).Some? && CharSextet(s[|s| - 3]).value % 16 == 0
    else
      && |s| >= 4 && s[|s| - 1] == '='
      && (forall i :: 0 <= i < |s| - 1 ==> s[i] != '=')
      && CharSextet(s[|s| - 2]).Some? && CharSextet(s[|s| - 2]).value % 4 == 0
  }

  /** One trailing byte: its second character carries two bits and four zero bits. */
  lemma OneGroupCanonical(b0: byte)
    ensures Canonical(EncodeGroup(b0, 0, 0, 1), 1)
  {
    var q := EncodeGroup(b0, 0, 0, 1);
    SextetRoundTrip((b0 as int % 4) * 16);
    assert q[2..] == "==";
  }

  /** Two trailing bytes: their third character carries four bits and two zero bits. */
  lemma TwoGroupCanonical(b0: byte, b1: byte)
    ensures Canonical(EncodeGroup(b0, b1, 0, 2), 2)
  {
    SextetRoundTrip((b1 as int % 16) * 4);
  }

  /** Three bytes encode to four characters, none of them `=`. */
  lemma FullGroupUnpadded(b0: byte, b1: byte, b2: byte)
    ensures |EncodeGroup(b0, b1, b2, 3)| == 4 && '=' !in EncodeGroup(b0, b1, b2, 3)
  {
  }

  /** Three leading bytes encode to one quantum, followed by the encoding of the rest. */
  lemma EncodeCons(bs: seq<byte>)
    requires |bs| >= 3
    ensures Encode(bs) == EncodeGroup(bs[0], bs[1], bs[2], 3) + Encode(bs[3..])
  {
  }

  /** A full quantum without padding in front of canonical text keeps it canonical. */
  lemma PrependQuantum(head: string, rest: string, tail: int)
    requires |head| == 4 && '=' !in head && 0 <= tail < 3
    requires Canonical(rest, tail)
    ensures Canonical(head + rest, tail)
  {
    var s := head + rest;
    assert forall i :: 0 <= i < 4 ==> s[i] == head[i];
    assert forall i :: 4 <= i < |s| ==> s[i] == rest[i - 4];
    if tail > 0 {
      assert s[|s| - 2..] == rest[|rest| - 2..];
    }
  }

  /** The encoder's output is canonical: no stray `=`, and zero pad bits. */
  lemma {:induction false} CanonicalPadding(bs: seq<byte>)
    ensures Canonical(Encode(bs), |bs| % 3)
    decreases |bs|
  {
    if |bs| == 1 {
      assert Encode(bs) == EncodeGroup(bs[0], 0, 0, 1);
      OneGroupCanonical(bs[0]);
    } else if |bs| == 2 {
      assert Encode(bs) == EncodeGroup(bs[0], bs[1], 0, 2);
      TwoGroupCanonical(bs[0], bs[1]);
    } else if |bs| >= 3 {
      var tail := |bs| % 3;
      assert |bs[3..]| == |bs| - 3;
      assert |bs[3..]| % 3 == tail;
      EncodeCons(bs);
      FullGroupUnpadded(bs[0], bs[1], bs[2]);
      CanonicalPadding(bs[3..]);
      PrependQuantum(EncodeGroup(bs[0], bs[1], bs[2], 3), Encode(bs[3..]), tail);
    }
  }

  /** `NO_WRAP` output never contains a line break. */
  lemma NoLineBreaks(bs: seq<byte>)
    ensures '\n' !in Encode(bs)
  {
    var s := Encode(bs);
    assert forall i :: 0 <= i < |s| ==> s[i] != '\n';
  }

  /** A 16-byte beacon id encodes to 24 characters without line breaks, and decodes back. */
  lemma SixteenBytes(bs: seq<byte>)
    requires |bs| == 16
    ensures |Encode(bs)| == 24
    ensures '\n' !in Encode(bs)
    ensures Decode(Encode(bs)) == Some(bs)
  {
    var s := Encode(bs);
    assert (|bs| + 2) / 3 == 6;
    assert |s| == 24;
    NoLineBreaks(bs);
    RoundTrip(bs);
  }

  /** A 16-byte beacon id ends in one padded quantum `xx==` whose pad bits are zero. */
  lemma SixteenBytesCanonical(bs: seq<byte>)
    requires |bs| == 16
    ensures Canonical(Encode(bs), 1)
  {
    var tail := |bs| % 3;
    assert tail == 1;
    CanonicalPadding(bs);
  }
}

=== FILE: beacon_observer.dfy ===
/**
 * The observer service: it turns a raw advertisement into a
 * "get for observed" request body, and the registry's reply into the list
 * of attachment payloads it logs.
 */
module BeaconObserver {
  import opened Wrappers
  import opened Faults
  import opened Hex
  import opened Android
  import opened JsonTree
  import Base64

  const ExtraBeaconId := "BeaconObserverService.EXTRA_BEACON_ID"

  /** The advertised id is the last 16 bytes of the advertisement. */
  const PacketLength: nat := 16

  /**
   * `Base64.encodeToString(advertisement, length - 16, 16, NO_WRAP)`: the
   * encoding of the last 16 bytes; a shorter advertisement makes the offset
   * negative and the read before the start of the array throws.
   */
  function ObservedId(advertisement: seq<byte>): (r: Result<string, Fault>)
    ensures r.Ok? <==> |advertisement| >= PacketLength
    ensures r.Err? ==> r.error == ArrayIndexOutOfBounds(|advertisement| - PacketLength)
    ensures r.Ok? ==> |r.value| == 24 && '\n' !in r.value
    ensures r.Ok? ==> Base64.Decode(r.value) == Some(advertisement[|advertisement| - PacketLength..])
    ensures r.Ok? ==> Base64.Canonical(r.value, 1)
  {
    var offset := |advertisement| - PacketLength;
    if offset < 0 then Err(ArrayIndexOutOfBounds(offset))
    else
      Base64.SixteenBytes(advertisement[offset..]);
      Base64.SixteenBytesCanonical(advertisement[offset..]);
      Ok(Base64.Encode(advertisement[offset..]))
  }

  /** `getObservedBody`: one observation of the encoded id at `timestamp`, for attachments of `namespace`. */
  function ObservedBody(advertisement: seq<byte>, namespace: string, timestamp: string): (r: Result<Json, Fault>)
    ensures r.Ok? <==> |advertisement| >= PacketLength
    ensures r.Err? ==> r.error == ArrayIndexOutOfBounds(|advertisement| - PacketLength)
    ensures r.Ok? ==> RequestNamespace(r.value) == Some(namespace)
    ensures r.Ok? ==> RequestIds(r.value) == Some([ObservedId(advertisement).value])
    ensures r.Ok? ==> RequestTimestamps(r.value) == Some([timestamp])
    ensures r.Ok? ==> r.value.Object? && r.value.fields.Keys == {"observations", "namespacedTypes"}
  {
    var id :- ObservedId(advertisement);
    var observation := ObservationJson(id, timestamp);
    SingleObservation(observation, namespace);
    Ok(Object(map["observations" := Array([observation]), "namespacedTypes" := Str(namespace)]))
  }

  /** One entry of `observations`: the advertised Eddystone id and the time it was seen. */
  function ObservationJson(id: string, timestamp: string): (o: Json)
    ensures EddystoneId(o) == Some(id)
    ensures Timestamp(o) == Some(timestamp)
  {
    var advertisedId := Object(map["type" := Str("EDDYSTONE"), "id" := Str(id)]);
    Object(map["advertisedId" := advertisedId, "timestampMs" := Str(timestamp)])
  }

  /**
   * A body with one Eddystone observation asks for its namespace and lists
   * that observation's id and timestamp alone.
   */
  lemma SingleObservation(observation: Json, namespace: string)
    requires EddystoneId(observation).Some? && Timestamp(observation).Some?
    ensures var body := Object(map["observations" := Array([observation]), "namespacedTypes" := Str(namespace)]);
      && RequestNamespace(body) == Some(namespace)
      && RequestIds(body) == Some([EddystoneId(observation).value])
      && RequestTimestamps(body) == Some([Timestamp(observation).value])
  {
    var ids := seq(1, i requires 0 <= i < 1 => EddystoneId([observation][i]).value);
    assert ids[0] == EddystoneId(observation).value;
    assert ids == [EddystoneId(observation).value];
    var stamps := seq(1, i requires 0 <= i < 1 => Timestamp([observation][i]).value);
    assert stamps[0] == Timestamp(observation).value;
    assert stamps == [Timestamp(observation).value];
  }

  /** The `namespacedTypes` a request body asks for. */
  function RequestNamespace(body: Json): Option<string>
  {
    if body.Object? && "namespacedTypes" in body.fields && body.fields["namespacedTypes"].Str?
    then Some(body.fields["namespacedTypes"].s)
    else None
  }

  /** The id of one observation, when it is an Eddystone advertised id. */
  function EddystoneId(observation: Json): Option<string>
  {
    if observation.Object? && "advertisedId" in observation.fields then
      var advertised := observation.fields["advertisedId"];
      if advertised.Object? && advertised.fields.Keys == {"type", "id"}
         && advertised.fields["type"] == Str("EDDYSTONE") && advertised.fields["id"].Str?
      then Some(advertised.fields["id"].s)
      else None
    else None
  }

  /** The Eddystone ids of all observations of a request body, in order. */
  function RequestIds(body: Json): Option<seq<string>>
  {
    if body.Object? && "observations" in body.fields && body.fields["observations"].Array? then
      var observations := body.fields["observations"].items;
      if forall i :: 0 <= i < |observations| ==> EddystoneId(observations[i]).Some?
      then Some(seq(|observations|, i requires 0 <= i < |observations| => EddystoneId(observations[i]).value))
      else None
    else None
  }

  /** The time of one observation: its `timestampMs` string, beside nothing but its advertised id. */
  function Timestamp(observation: Json): Option<string>
  {
    if observation.Object? && observation.fields.Keys == {"advertisedId", "timestampMs"}
       && observation.fields["timestampMs"].Str?
    then Some(observation.fields["timestampMs"].s)
    else None
  }

  /** The timestamps of all observations of a request body, in order. */
  function RequestTimestamps(body: Json): Option<seq<string>>
  {
    if body.Object? && "observations" in body.fields && body.fields["observations"].Array? then
      var observations := body.fields["observations"].items;
      if forall i :: 0 <= i < |observations| ==> Timestamp(observations[i]).Some?
      then Some(seq(|observations|, i requires 0 <= i < |observations| => Timestamp(observations[i]).value))
      else None
    else None
  }

  /** The request carries exactly one observation, and its id decodes to the advertisement's last 16 bytes. */
  lemma RequestCarriesAdvertisedId(advertisement: seq<byte>, namespace: string, timestamp: string)
    requires |advertisement| >= PacketLength
    ensures ObservedBody(advertisement, namespace, timestamp).Ok?
    ensures var ids := RequestIds(ObservedBody(advertisement, namespace, timestamp).value);
      && ids.Some? && |ids.value| == 1
      && Base64.Decode(ids.value[0]) == Some(advertisement[|advertisement| - PacketLength..])
  {
  }

  /** Why parsing a reply fails: a `JSONException`, or a `data` field that is not base64. */
  datatype ParseError = JsonFailure(error: JsonError) | BadBase64(index: nat)

  /** The payload of one attachment: its `data` string, base64-decoded. */
  function AttachmentPayload(attachment: Json): Option<seq<byte>>
  {
    if attachment.Object? && "data" in attachment.fields && attachment.fields["data"].Str?
    then Base64.Decode(attachment.fields["data"].s)
    else None
  }

  /** One iteration of `parseAttachments`: element `i` as an object, its `data` string, base64-decoded. */
  function DecodeAttachment(attachments: seq<Json>, i: nat): (r: Result<seq<byte>, ParseError>)
    requires i < |attachments|
    ensures r.Ok? <==> AttachmentPayload(attachments[i]).Some?
    ensures r.Ok? ==> AttachmentPayload(attachments[i]) == Some(r.value)
    ensures !attachments[i].Object? ==> r == Err(JsonFailure(ElementNotObject(i)))
    ensures attachments[i].Object? && "data" !in attachments[i].fields ==> r == Err(JsonFailure(MissingKey("data")))
    ensures attachments[i].Object? && "data" in attachments[i].fields && !attachments[i].fields["data"].Str?
      ==> r == Err(JsonFailure(TypeMismatch("data")))
    ensures attachments[i].Object? && "data" in attachments[i].fields && attachments[i].fields["data"].Str?
      ==> (r == Err(BadBase64(i)) <==> Base64.Decode(attachments[i].fields["data"].s).None?)
  {
    var attachment :- GetObjectAt(attachments, i).MapFailure(e => JsonFailure(e));
    var encoded :- GetString(attachment, "data").MapFailure(e => JsonFailure(e));
    match Base64.Decode(encoded)
    case None => Err(BadBase64(i))
    case Some(payload) => Ok(payload)
  }

  /** The loop of `parseAttachments` from element `from` on: each `data` decoded, in array order. */
  function DecodeFrom(attachments: seq<Json>, from: nat): (r: Result<seq<seq<byte>>, ParseError>)
    requires from <= |attachments|
    ensures r.Ok? <==> forall i :: from <= i < |attachments| ==> AttachmentPayload(attachments[i]).Some?
    ensures r.Ok? ==> |r.value| == |attachments| - from
    decreases |attachments| - from
  {
    if from == |attachments| then Ok([])
    else
      match DecodeAttachment(attachments, from)
      case Err(e) => Err(e)
      case Ok(payload) =>
        match DecodeFrom(attachments, from + 1)
        case Err(e) => Err(e)
        case Ok(rest) =>
          Ok([payload] + rest)
  }

  /** What the loop collects: the payload at `i - from` is the decoded `data` of element `i`. */
  lemma {:induction false} DecodeFromPayloads(attachments: seq<Json>, from: nat)
    requires from <= |attachments|
    ensures DecodeFrom(attachments, from).Ok? ==>
      var payloads := DecodeFrom(attachments, from).value;
      forall i :: from <= i < |attachments| ==> AttachmentPayload(attachments[i]) == Some(payloads[i - from])
    decreases |attachments| - from
  {
    if from < |attachments| && DecodeFrom(attachments, from).Ok? {
      DecodeFromCons(attachments, from);
      DecodeFromPayloads(attachments, from + 1);
      PayloadsCons(attachments, from, DecodeAttachment(attachments, from).value, DecodeFrom(attachments, from + 1).value);
    }
  }

  /** Payloads matching elements `from + 1` onwards, preceded by the payload of element `from`, match from `from`. */
  lemma PayloadsCons(attachments: seq<Json>, from: nat, head: seq<byte>, rest: seq<seq<byte>>)
    requires from < |attachments| && |rest| == |attachments| - (from + 1)
    requires AttachmentPayload(attachments[from]) == Some(head)
    requires forall i :: from + 1 <= i < |attachments| ==> AttachmentPayload(attachments[i]) == Some(rest[i - (from + 1)])
    ensures forall i :: from <= i < |attachments| ==> AttachmentPayload(attachments[i]) == Some(([head] + rest)[i - from])
  {
    forall i | from <= i < |attachments|
      ensures AttachmentPayload(attachments[i]) == Some(([head] + rest)[i - from])
    {
      if i > from {
        assert ([head] + rest)[i - from] == rest[i - (from + 1)];
      }
    }
  }

  /** The loop stops at the first attachment that fails, and reports that attachment's error. */
  lemma {:induction false} DecodeFromFirstError(attachments: seq<Json>, from: nat)
    requires from <= |attachments|
    ensures DecodeFrom(attachments, from).Err? ==>
      exists j :: from <= j < |attachments|
        && (forall k :: from <= k < j ==> DecodeAttachment(attachments, k).Ok?)
        && DecodeAttachment(attachments, j) == Err(DecodeFrom(attachments, from).error)
    decreases |attachments| - from
  {
    if from < |attachments| && DecodeFrom(attachments, from).Err? {
      var error := DecodeFrom(attachments, from).error;
      DecodeFromStep(attachments, from);
      if DecodeAttachment(attachments, from).Ok? {
        DecodeFromFirstError(attachments, from + 1);
        var j :| from + 1 <= j < |attachments|
          && (forall k :: from + 1 <= k < j ==> DecodeAttachment(attachments, k).Ok?)
          && DecodeAttachment(attachments, j) == Err(error);
        assert forall k :: from <= k < j ==> DecodeAttachment(attachments, k).Ok? by {
          forall k | from <= k < j ensures DecodeAttachment(attachments, k).Ok? {
            if k == from { assert DecodeAttachment(attachments, from).Ok?; }
          }
        }
      }
    }
  }

  /** One turn of the loop: a failing attachment ends it; a decoded one passes on what the rest reports. */
  lemma DecodeFromStep(attachments: seq<Json>, from: nat)
    requires from < |attachments|
    ensures DecodeAttachment(attachments, from).Err? ==> DecodeFrom(attachments, from) == Err(DecodeAttachment(attachments, from).error)
    ensures DecodeAttachment(attachments, from).Ok? && DecodeFrom(attachments, from).Err?
      ==> DecodeFrom(attachments, from + 1) == DecodeFrom(attachments, from)
  {
  }

  /** One turn of a loop that succeeds: the decoded attachment, then what the rest collects. */
  lemma DecodeFromCons(attachments: seq<Json>, from: nat)
    requires from < |attachments|
    ensures DecodeFrom(attachments, from).Ok? ==>
      && DecodeAttachment(attachments, from).Ok? && DecodeFrom(attachments, from + 1).Ok?
      && DecodeFrom(attachments, from).value == [DecodeAttachment(attachments, from).value] + DecodeFrom(attachments, from + 1).value
  {
  }

  /** The `attachments` array of the first beacon of a reply. */
  function FirstBeaconAttachments(response: Json): (r: Result<seq<Json>, JsonError>)
    ensures !response.Object? ==> r == Err(NotAnObject)
    ensures response.Object? && "beacons" !in response.fields ==> r == Err(MissingKey("beacons"))
    ensures response.Object? && "beacons" in response.fields && !response.fields["beacons"].Array?
      ==> r == Err(TypeMismatch("beacons"))
    ensures response.Object? && "beacons" in response.fields && response.fields["beacons"] == Array([])
      ==> r == Err(IndexOutOfRange(0))
    ensures response.Object? && "beacons" in response.fields && response.fields["beacons"].Array?
      && |response.fields["beacons"].items| > 0
      ==> var first := response.fields["beacons"].items[0];
        r == if first.Object? then GetArray(first.fields, "attachments") else Err(ElementNotObject(0))
    ensures r.Ok? ==>
      && response.Object? && "beacons" in response.fields && response.fields["beacons"].Array?
      && |response.fields["beacons"].items| > 0
  {
    var top :- AsObject(response);
    var beacons :- GetArray(top, "beacons");
    var first :- GetObjectAt(beacons, 0);
    GetArray(first, "attachments")
  }

  /**
   * `parseAttachments`: the decoded `data` of every attachment of the first
   * beacon, in order. A missing `beacons`, an empty `beacons` array or a
   * missing `attachments` or `data` is a JSON error; no partial list is
   * returned.
   */
  function ParseAttachments(response: Json): (r: Result<seq<seq<byte>>, ParseError>)
    ensures FirstBeaconAttachments(response).Err? ==> r == Err(JsonFailure(FirstBeaconAttachments(response).error))
    ensures r.Ok? ==> FirstBeaconAttachments(response).Ok?
    ensures r.Ok? ==> var attachments := FirstBeaconAttachments(response).value;
      && |r.value| == |attachments|
      && forall i :: 0 <= i < |attachments| ==> AttachmentPayload(attachments[i]) == Some(r.value[i])
    ensures FirstBeaconAttachments(response).Ok? ==> var attachments := FirstBeaconAttachments(response).value;
      r.Ok? <==> forall i :: 0 <= i < |attachments| ==> AttachmentPayload(attachments[i]).Some?
    ensures FirstBeaconAttachments(response).Ok? && r.Err? ==> var attachments := FirstBeaconAttachments(response).value;
      exists j :: 0 <= j < |attachments|
        && (forall k :: 0 <= k < j ==> DecodeAttachment(attachments, k).Ok?)
        && DecodeAttachment(attachments, j) == Err(r.error)
  {
    match FirstBeaconAttachments(response)
    case Err(e) => Err(JsonFailure(e))
    case Ok(attachments) =>
      DecodeFromPayloads(attachments, 0);
      DecodeFromFirstError(attachments, 0);
      DecodeFrom(attachments, 0)
  }

  /** A registry reply listing the given payloads as the attachments of a single beacon. */
  function ReplyWith(payloads: seq<seq<byte>>): Json
  {
    var attachments := seq(|payloads|, i requires 0 <= i < |payloads| => Object(map["data" := Str(Base64.Encode(payloads[i]))]));
    Object(map["beacons" := Array([Object(map["attachments" := Array(attachments)])])])
  }

  /** Parsing a reply built from payloads gives exactly those payloads, in order. */
  lemma ReplyRoundTrip(payloads: seq<seq<byte>>)
    ensures ParseAttachments(ReplyWith(payloads)) == Ok(payloads)
  {
    var attachments := seq(|payloads|, i requires 0 <= i < |payloads| => Object(map["data" := Str(Base64.Encode(payloads[i]))]));
    var first := map["attachments" := Array(attachments)];
    var reply := Object(map["beacons" := Array([Object(first)])]);
    assert reply == ReplyWith(payloads);
    assert GetObjectAt([Object(first)], 0) == Ok(first);
    assert FirstBeaconAttachments(reply) == Ok(attachments);
    forall i | 0 <= i < |payloads|
      ensures AttachmentPayload(attachments[i]) == Some(payloads[i])
    {
      Base64.RoundTrip(payloads[i]);
    }
    var r := DecodeFrom(attachments, 0);
    assert ParseAttachments(reply) == r;
    assert r.Ok?;
    DecodeFromPayloads(attachments, 0);
    forall i | 0 <= i < |payloads|
      ensures r.value[i] == payloads[i]
    {
      assert AttachmentPayload(attachments[i]) == Some(r.value[i - 0]);
    }
    assert r.value == payloads;
  }

  /** Only the first beacon of a reply is read: what follows it does not matter. */
  lemma OnlyFirstBeaconRead(fields: map<string, Json>, first: Json, others: seq<Json>, others': seq<Json>)
    ensures ParseAttachments(Object(fields["beacons" := Array([first] + others)]))
         == ParseAttachments(Object(fields["beacons" := Array([first] + others')]))
  {
  }

  /** The base64 text `b2ZmZXI=` is the five ASCII bytes of "offer". */
  lemma OfferDataDecodes()
    ensures Base64.Decode("b2ZmZXI=") == Some([0x6f, 0x66, 0x66, 0x65, 0x72])
  {
    var text := "b2ZmZXI=";
    assert text[..4] == "b2Zm" && text[4..] == "ZXI=";
    assert Base64.CharSextet('b') == Some(27) && Base64.CharSextet('2') == Some(54);
    assert Base64.CharSextet('Z') == Some(25) && Base64.CharSextet('m') == Some(38);
    assert Base64.CharSextet('X') == Some(23) && Base64.CharSextet('I') == Some(8);
    assert Base64.DecodeFull("b2Zm") == Some([0x6f, 0x66, 0x66]);
    assert Base64.Decode("ZXI=") == Some([0x65, 0x72]);
    var head: seq<byte>, tail: seq<byte> := [0x6f, 0x66, 0x66], [0x65, 0x72];
    assert Base64.Decode(text) == Some(head + tail);
    assert head + tail == [0x6f, 0x66, 0x66, 0x65, 0x72];
  }

  /** A reply with one attachment whose data is `b2ZmZXI=` parses to the single payload "offer". */
  lemma OfferExample()
    ensures ParseAttachments(Object(map["beacons" := Array([Object(map["attachments" := Array([Object(map["data" := Str("b2ZmZXI=")])])])])]))
         == Ok([[0x6f, 0x66, 0x66, 0x65, 0x72]])
  {
    var attachment := Object(map["data" := Str("b2ZmZXI=")]);
    var reply := Object(map["beacons" := Array([Object(map["attachments" := Array([attachment])])])]);
    assert FirstBeaconAttachments(reply) == Ok([attachment]);
    OfferDataDecodes();
    assert AttachmentPayload(attachment) == Some([0x6f, 0x66, 0x66, 0x65, 0x72]);
    var payload: seq<byte> := [0x6f, 0x66, 0x66, 0x65, 0x72];
    assert DecodeAttachment([attachment], 0) == Ok(payload);
    assert DecodeFrom([attachment], 1) == Ok([]);
    assert [payload] + [] == [payload];
    assert DecodeFrom([attachment], 0) == Ok([payload]);
  }

  /** What the POST gave back: parsed reply text, text that is not JSON, or an `IOException`. */
  datatype Reply = Received(body: Json) | Unparseable | TransportFailure

  /** How `onHandleIntent` ends. */
  datatype Outcome =
    | NothingToDo
    | LoggedAttachments(attachments: seq<seq<byte>>)
    | LoggedJsonError
    | LoggedIoError
    | Crashed(fault: Fault)

  /** The request body posted, if one was built, and how the call ended. */
  datatype Observation = Observation(request: Option<Json>, outcome: Outcome)

  /**
   * `onHandleIntent`: a null intent or one without the beacon id extra
   * returns at once. Otherwise the body is built and posted and the reply
   * parsed; JSON and I/O failures are logged, while a missing byte array,
   * a short advertisement and a bad base64 payload escape as runtime
   * exceptions.
   */
  function HandleIntent(intent: Option<Intent>, namespace: string, timestamp: string, reply: Reply): (o: Observation)
    ensures o.outcome.NothingToDo? <==> intent.None? || ExtraBeaconId !in intent.value.extras
    ensures o.request.Some? <==>
      && intent.Some?
      && ByteArrayExtra(intent.value, ExtraBeaconId).Some?
      && |ByteArrayExtra(intent.value, ExtraBeaconId).value| >= PacketLength
    ensures o.request.Some? ==>
      o.request == Some(ObservedBody(ByteArrayExtra(intent.value, ExtraBeaconId).value, namespace, timestamp).value)
    ensures o.outcome.LoggedAttachments? <==>
      o.request.Some? && reply.Received? && ParseAttachments(reply.body).Ok?
    ensures o.outcome.LoggedAttachments? ==> o.outcome.attachments == ParseAttachments(reply.body).value
    ensures o.outcome.LoggedIoError? <==> o.request.Some? && reply.TransportFailure?
    ensures o.outcome.LoggedJsonError? <==>
      && o.request.Some?
      && (|| reply.Unparseable?
          || (reply.Received? && ParseAttachments(reply.body).Err? && ParseAttachments(reply.body).error.JsonFailure?))
    ensures o.outcome.Crashed? <==>
      || (intent.Some? && ExtraBeaconId in intent.value.extras && o.request.None?)
      || (o.request.Some? && reply.Received? && ParseAttachments(reply.body).Err? && ParseAttachments(reply.body).error.BadBase64?)
    ensures intent.Some? && ExtraBeaconId in intent.value.extras && ByteArrayExtra(intent.value, ExtraBeaconId).None?
      ==> o.outcome == Crashed(NullPointer)
    ensures intent.Some? && ByteArrayExtra(intent.value, ExtraBeaconId).Some?
      && |ByteArrayExtra(intent.value, ExtraBeaconId).value| < PacketLength
      ==> o.outcome == Crashed(ArrayIndexOutOfBounds(|ByteArrayExtra(intent.value, ExtraBeaconId).value| - PacketLength))
    ensures o.request.Some? && reply.Received? && ParseAttachments(reply.body).Err? && ParseAttachments(reply.body).error.BadBase64?
      ==> o.outcome == Crashed(IllegalArgument("bad base-64"))
  {
    if intent.None? || ExtraBeaconId !in intent.value.extras then Observation(None, NothingToDo)
    else
      match ByteArrayExtra(intent.value, ExtraBeaconId)
      case None => Observation(None, Crashed(NullPointer))
      case Some(advertisement) =>
        match ObservedBody(advertisement, namespace, timestamp)
        case Err(fault) => Observation(None, Crashed(fault))
        case Ok(body) =>
          match reply
          case TransportFailure => Observation(Some(body), LoggedIoError)
          case Unparseable => Observation(Some(body), LoggedJsonError)
          case Received(response) =>
            match ParseAttachments(response)
            case Ok(attachments) => Observation(Some(body), LoggedAttachments(attachments))
            case Err(JsonFailure(_)) => Observation(Some(body), LoggedJsonError)
            case Err(BadBase64(_)) => Observation(Some(body), Crashed(IllegalArgument("bad base-64")))
  }

  /**
   * An intent carrying an advertisement, answered with a reply that lists
   * some payloads, posts the observed body and logs exactly those payloads.
   */
  lemma ObservedReplyLogged(advertisement: seq<byte>, namespace: string, timestamp: string, payloads: seq<seq<byte>>)
    requires |advertisement| >= PacketLength
    ensures var intent := Intent(None, map[ExtraBeaconId := ByteArray(advertisement)]);
      HandleIntent(Some(intent), namespace, timestamp, Received(ReplyWith(payloads)))
        == Observation(Some(ObservedBody(advertisement, namespace, timestamp).value), LoggedAttachments(payloads))
  {
    var intent := Intent(None, map[ExtraBeaconId := ByteArray(advertisement)]);
    assert ByteArrayExtra(intent, ExtraBeaconId) == Some(advertisement);
    ReplyRoundTrip(payloads);
  }
}

=== FILE: beacon_service.dfy ===
/**
 * The background service behind the Nearby subscription: the set of offers
 * detected since the user last dismissed the notification, updated as
 * messages are found and lost.
 */
module BeaconService {
  import opened Wrappers
  import opened Android
  import opened OfferBeacons

  const ActionDismiss := "BeaconService.ACTION_DISMISS"

  /** `mDetectedBeacons`, as the set of distinct offers that `equals` describes. */
  type Detected = set<OfferBeacon>

  /** The set `onCreate` starts from. */
  const InitialDetected: Detected := {}

  /** No two tracked offers are equal, that is, share a section. */
  predicate DistinctSections(s: Detected) {
    forall a, b :: a in s && b in s && Equals(a, Some(b)) ==> a == b
  }

  function Sections(s: Detected): set<string> {
    set b | b in s :: b.section
  }

  datatype AddResult = AddResult(detected: Detected, added: bool)

  /**
   * `add` on a set of offers compared with `equals`: an offer whose section
   * is already tracked leaves the set as it is (the earlier offer stays).
   */
  function Add(s: Detected, b: OfferBeacon): (r: AddResult)
    ensures r.added <==> b.section !in Sections(s)
    ensures r.added ==> r.detected == s + {b} && |r.detected| == |s| + 1
    ensures !r.added ==> r.detected == s
    ensures Sections(r.detected) == Sections(s) + {b.section}
    ensures DistinctSections(s) ==> DistinctSections(r.detected)
  {
    if exists e :: e in s && Equals(e, Some(b)) then
      AddResult(s, false)
    else
      assert b !in s;
      AddResult(s + {b}, true)
  }

  /** `remove` on a set of offers compared with `equals`: drops the tracked offer with the same section. */
  function Remove(s: Detected, b: OfferBeacon): (r: Detected)
    ensures r <= s
    ensures Sections(r) == Sections(s) - {b.section}
    ensures forall e :: e in s && e.section != b.section ==> e in r
    ensures DistinctSections(s) ==> DistinctSections(r)
  {
    set e | e in s && !Equals(e, Some(b))
  }

  /** With distinct sections, losing an offer removes at most one element. */
  lemma RemoveDropsAtMostOne(s: Detected, b: OfferBeacon)
    requires DistinctSections(s)
    ensures |Remove(s, b)| >= |s| - 1
    ensures b in s ==> Remove(s, b) == s - {b}
  {
    var r := Remove(s, b);
    var gone := s - r;
    if e :| e in gone {
      assert gone == {e} by {
        forall x | x in gone ensures x == e {
          assert Equals(x, Some(e));
        }
      }
    } else {
      assert gone == {};
    }
    assert s == r + gone;
  }

  /**
   * `onFound`: the message becomes an offer; a new offer is tracked and the
   * notification is posted with the set's new size, while an offer already
   * tracked changes nothing. A message the constructor rejects throws.
   */
  function OnFound(s: Detected, m: Message): (r: Result<(Detected, seq<Effect>), OfferError>)
    ensures r.Err? <==> FromMessage(m).Err?
    ensures r.Err? ==> r.error == FromMessage(m).error
    ensures r.Ok? ==> var b := FromMessage(m).value;
      && (b.section in Sections(s) ==> r.value == (s, []))
      && (b.section !in Sections(s) ==> r.value == (s + {b}, [PostNotification(|s| + 1)]))
    ensures r.Ok? && r.value.1 != [] ==> r.value.1 == [PostNotification(|r.value.0|)] && |r.value.0| >= 1
    ensures r.Ok? && DistinctSections(s) ==> DistinctSections(r.value.0)
  {
    var beacon :- FromMessage(m);
    var result := Add(s, beacon);
    if result.added then Ok((result.detected, [PostNotification(|result.detected|)])) else Ok((s, []))
  }

  /** `onLost`: the offer with the lost message's section is dropped; nothing else changes. */
  function OnLost(s: Detected, m: Message): (r: Result<Detected, OfferError>)
    ensures r.Err? <==> FromMessage(m).Err?
    ensures r.Err? ==> r.error == FromMessage(m).error
    ensures r.Ok? ==> r.value == Remove(s, FromMessage(m).value)
    ensures r.Ok? ==> FromMessage(m).value.section !in Sections(r.value)
    ensures r.Ok? ==> forall e :: e in s && e.section != FromMessage(m).value.section ==> e in r.value
  {
    var beacon :- FromMessage(m);
    Ok(Remove(s, beacon))
  }

  /** A listener callback that `Nearby.Messages.handleIntent` delivers for an intent. */
  datatype Callback = Found(message: Message) | Lost(message: Message)

  /** The set and the effects after a run of callbacks, and the rejection that cut it short, if any. */
  datatype Delivery = Delivery(detected: Detected, effects: seq<Effect>, fault: Option<OfferError>)

  /** One callback: `onFound` or `onLost` on the set, with the effects it posts. */
  function Step(s: Detected, c: Callback): (r: Result<(Detected, seq<Effect>), OfferError>)
    ensures r.Err? <==> FromMessage(c.message).Err?
    ensures r.Err? ==> r.error == FromMessage(c.message).error
  {
    match c
    case Found(m) => OnFound(s, m)
    case Lost(m) =>
      match OnLost(s, m)
      case Err(e) => Err(e)
      case Ok(s') => Ok((s', []))
  }

  /** Callbacks handled in order; a rejected message stops the rest. */
  function Deliver(s: Detected, callbacks: seq<Callback>): (d: Delivery)
    ensures DistinctSections(s) ==> DistinctSections(d.detected)
    ensures forall i :: 0 <= i < |d.effects| ==> d.effects[i].PostNotification? && d.effects[i].count >= 1
    ensures d.fault.None? <==> forall i :: 0 <= i < |callbacks| ==> FromMessage(callbacks[i].message).Ok?
    decreases |callbacks|
  {
    if |callbacks| == 0 then Delivery(s, [], None)
    else
      match Step(s, callbacks[0])
      case Err(e) => Delivery(s, [], Some(e))
      case Ok((s', effects)) =>
        var rest := Deliver(s', callbacks[1..]);
        assert forall i :: 1 <= i < |callbacks| ==> callbacks[i] == callbacks[1..][i - 1];
        Delivery(rest.detected, effects + rest.effects, rest.fault)
  }

  /** Callbacks handled in order by any `step`: the shape of `Deliver`, with the step left open. */
  function Run(step: (Detected, Callback) -> Result<(Detected, seq<Effect>), OfferError>, s: Detected, callbacks: seq<Callback>): Delivery
    decreases |callbacks|
  {
    if |callbacks| == 0 then Delivery(s, [], None)
    else
      match step(s, callbacks[0])
      case Err(e) => Delivery(s, [], Some(e))
      case Ok((s', effects)) =>
        var rest := Run(step, s', callbacks[1..]);
        Delivery(rest.detected, effects + rest.effects, rest.fault)
  }

  /** `Deliver` is the run of `Step`. */
  lemma {:induction false} DeliverIsRun(s: Detected, callbacks: seq<Callback>)
    ensures Deliver(s, callbacks) == Run(Step, s, callbacks)
    decreases |callbacks|
  {
    if |callbacks| > 0 {
      var step := Step(s, callbacks[0]);
      if step.Ok? {
        DeliverIsRun(step.value.0, callbacks[1..]);
      }
    }
  }

  /** Running `a + b` runs `a`, then `b` from where `a` stopped, unless `a` was cut short. */
  lemma {:induction false} RunAppend(step: (Detected, Callback) -> Result<(Detected, seq<Effect>), OfferError>, s: Detected, a: seq<Callback>, b: seq<Callback>)
    ensures var first := Run(step, s, a);
      var second := Run(step, first.detected, b);
      Run(step, s, a + b) == if first.fault.Some? then first
        else Delivery(second.detected, first.effects + second.effects, second.fault)
    decreases |a|
  {
    if |a| == 0 {
      assert a + b == b;
      assert [] + Run(step, s, b).effects == Run(step, s, b).effects;
    } else {
      assert (a + b)[0] == a[0] && (a + b)[1..] == a[1..] + b;
      match step(s, a[0])
      case Err(e) =>
      case Ok((s', effects)) =>
        RunAppend(step, s', a[1..], b);
        var rest := Run(step, s', a[1..]);
        var second := Run(step, rest.detected, b);
        assert effects + (rest.effects + second.effects) == (effects + rest.effects) + second.effects;
    }
  }

  /** A rejected run reports the rejection of its first message that is not an offer. */
  lemma {:induction false} DeliverStopsAtFirstRejection(s: Detected, callbacks: seq<Callback>)
    ensures Deliver(s, callbacks).fault.Some? ==>
      exists j :: 0 <= j < |callbacks|
        && (forall k :: 0 <= k < j ==> FromMessage(callbacks[k].message).Ok?)
        && FromMessage(callbacks[j].message) == Err(Deliver(s, callbacks).fault.value)
    decreases |callbacks|
  {
    if |callbacks| > 0 && Deliver(s, callbacks).fault.Some? {
      var fault := Deliver(s, callbacks).fault.value;
      var step := Step(s, callbacks[0]);
      if step.Err? {
        assert FromMessage(callbacks[0].message) == Err(fault);
      } else {
        var rest := callbacks[1..];
        DeliverStopsAtFirstRejection(step.value.0, rest);
        assert Deliver(step.value.0, rest).fault == Some(fault);
        var j :| 0 <= j < |rest| && (forall k :: 0 <= k < j ==> FromMessage(rest[k].message).Ok?)
          && FromMessage(rest[j].message) == Err(fault);
        assert callbacks[j + 1] == rest[j];
        assert forall k :: 0 <= k < j + 1 ==> FromMessage(callbacks[k].message).Ok? by {
          forall k | 0 <= k < j + 1 ensures FromMessage(callbacks[k].message).Ok? {
            if k > 0 { assert callbacks[k] == rest[k - 1]; }
          }
        }
      }
    }
  }

  /** A single callback has exactly the effect of `onFound` or `onLost` on the set. */
  lemma DeliverOne(s: Detected, c: Callback)
    ensures FromMessage(c.message).Err? ==> Deliver(s, [c]) == Delivery(s, [], Some(FromMessage(c.message).error))
    ensures c.Found? && OnFound(s, c.message).Ok? ==>
      Deliver(s, [c]) == Delivery(OnFound(s, c.message).value.0, OnFound(s, c.message).value.1, None)
    ensures c.Lost? && OnLost(s, c.message).Ok? ==> Deliver(s, [c]) == Delivery(OnLost(s, c.message).value, [], None)
  {
  }

  /**
   * Callbacks run in order: delivering `a + b` delivers `a`, then delivers `b`
   * from the set `a` left, and the effects of `b` follow those of `a`. A
   * rejection among the callbacks of `a` ends the run before `b`.
   */
  lemma DeliverAppend(s: Detected, a: seq<Callback>, b: seq<Callback>)
    ensures Deliver(s, a).fault.Some? ==> Deliver(s, a + b) == Deliver(s, a)
    ensures var first := Deliver(s, a);
      var second := Deliver(first.detected, b);
      first.fault.None? ==> Deliver(s, a + b) == Delivery(second.detected, first.effects + second.effects, second.fault)
  {
    DeliverIsRun(s, a);
    DeliverIsRun(s, a + b);
    DeliverIsRun(Deliver(s, a).detected, b);
    RunAppend(Step, s, a, b);
  }

  /**
   * `onStartCommand`: a null intent changes nothing; the dismiss action
   * hides the notification and stops the service without touching the set;
   * any other intent is handed to Nearby, whose callbacks update the set.
   */
  function OnStartCommand(s: Detected, intent: Option<Intent>, callbacks: seq<Callback>): (d: Delivery)
    ensures intent.None? ==> d == Delivery(s, [], None)
    ensures intent.Some? && HasAction(intent.value, ActionDismiss) ==> d == Delivery(s, [CancelNotification, StopSelf], None)
    ensures intent.Some? && !HasAction(intent.value, ActionDismiss) ==> d == Deliver(s, callbacks)
    ensures DistinctSections(s) ==> DistinctSections(d.detected)
  {
    match intent
    case None => Delivery(s, [], None)
    case Some(i) =>
      if HasAction(i, ActionDismiss) then Delivery(s, [CancelNotification, StopSelf], None)
      else Deliver(s, callbacks)
  }

  /** The set a newly created service starts from is empty and trivially keeps sections distinct. */
  lemma InitialDetectedIsEmpty()
    ensures |InitialDetected| == 0 && DistinctSections(InitialDetected)
  {
  }

  /*
   * The set as the code builds it. `OfferBeacon` overrides `equals` but not
   * `hashCode`, so a `HashSet` files each offer under the identity hash of
   * its object, and an element blocks an insertion or is removed only when
   * its hash is the same AND it is equal.
   */

  /** An `OfferBeacon` object together with the identity hash code it inherits from `Object`. */
  datatype Instance = Instance(identityHash: int, beacon: OfferBeacon)

  /** The stored element a `HashSet` looks up for `x`: same hash, then `equals`. */
  predicate HashMatches(e: Instance, x: Instance) {
    e.identityHash == x.identityHash && Equals(x.beacon, Some(e.beacon))
  }

  /** `HashSet.add` under identity hashes. */
  function HashSetAdd(s: set<Instance>, x: Instance): (r: (set<Instance>, bool))
    ensures r.1 <==> forall e :: e in s ==> !HashMatches(e, x)
    ensures r.1 ==> r.0 == s + {x}
    ensures !r.1 ==> r.0 == s
  {
    if exists e :: e in s && HashMatches(e, x) then (s, false) else (s + {x}, true)
  }

  /** `HashSet.remove` under identity hashes. */
  function HashSetRemove(s: set<Instance>, x: Instance): (r: set<Instance>)
    ensures r <= s
    ensures forall e :: e in s && !HashMatches(e, x) ==> e in r
    ensures forall e :: e in s && HashMatches(e, x) ==> e !in r
  {
    set e | e in s && !HashMatches(e, x)
  }

  /**
   * Two messages for the same section, each turned into a fresh object with
   * its own identity hash, are both kept: the set holds two offers for one
   * section and the notification counts them as two.
   */
  lemma AsWrittenKeepsDuplicateSections()
    ensures var first := Instance(1, OfferBeacon("shoes", "10% off"));
      var second := Instance(2, OfferBeacon("shoes", "20% off"));
      var (s1, added1) := HashSetAdd({}, first);
      var (s2, added2) := HashSetAdd(s1, second);
      added1 && added2 && |s2| == 2 && first in s2 && second in s2 && Equals(first.beacon, Some(second.beacon))
  {
    var first := Instance(1, OfferBeacon("shoes", "10% off"));
    var second := Instance(2, OfferBeacon("shoes", "20% off"));
    assert !HashMatches(first, second);
    assert {first} + {second} == {first, second};
  }

  /** `onLost` builds a fresh object; unless its identity hash happens to collide, nothing is removed. */
  lemma AsWrittenRemoveMisses(s: set<Instance>, x: Instance)
    requires forall e :: e in s ==> e.identityHash != x.identityHash
    ensures HashSetRemove(s, x) == s
  {
  }

  /** The same two messages through the section-keyed set: the second is recognised and not added. */
  lemma CorrectedKeepsOneOfferPerSection()
    ensures var s1 := Add(InitialDetected, OfferBeacon("shoes", "10% off"));
      var s2 := Add(s1.detected, OfferBeacon("shoes", "20% off"));
      s1.added && !s2.added && s2.detected == {OfferBeacon("shoes", "10% off")} && DistinctSections(s2.detected)
  {
    var s1 := Add(InitialDetected, OfferBeacon("shoes", "10% off"));
    assert "shoes" in Sections(s1.detected);
  }
}

=== FILE: eddystone_frame.dfy ===
/**
 * The Eddystone UID frame as the scanner service filters and reads it.
 * A UID frame is 18 bytes: byte 0 the frame type, byte 1 the TX power,
 * bytes 2..11 the namespace and bytes 12..17 the instance.
 */
module EddystoneFrame {
  import opened Wrappers
  import opened Faults
  import opened Hex

  const FrameLength: nat := 18
  const NamespaceStart: nat := 2
  const InstanceStart: nat := 12

  const TypeUid: byte := 0x00
  const TypeUrl: byte := 0x10
  const TypeTlm: byte := 0x20

  /** The fixed mask paired with every namespace filter: frame type and namespace must match. */
  const NamespaceFilterMask: seq<byte> :=
    [0xFF,
     0x00,
     0xFF, 0xFF, 0xFF, 0xFF, 0xFF,
     0xFF, 0xFF, 0xFF, 0xFF, 0xFF,
     0x00, 0x00, 0x00, 0x00, 0x00, 0x00]

  lemma MaskShape()
    ensures |NamespaceFilterMask| == FrameLength
    ensures NamespaceFilterMask[0] == 0xFF && NamespaceFilterMask[1] == 0x00
    ensures forall i :: NamespaceStart <= i < InstanceStart ==> NamespaceFilterMask[i] == 0xFF
    ensures forall i :: InstanceStart <= i < FrameLength ==> NamespaceFilterMask[i] == 0x00
  {
  }

  /** The byte one pair of characters of a namespace string becomes: `(byte)((digit << 4) + digit)`. */
  function PairByte(hi: char, lo: char): byte
  {
    ToByte(Digit(hi) * 16 + Digit(lo))
  }

  /**
   * The loop of `getNamespaceFilter` from character `i` on: pair `i/2` goes
   * to index `2 + i/2`. The right-hand side (and its `charAt(i+1)`) is
   * evaluated before the array store is bounds-checked.
   */
  function FillFrom(ns: string, i: nat, filter: seq<byte>): (r: Result<seq<byte>, Fault>)
    requires |filter| == FrameLength && i % 2 == 0 && i <= |ns| && i <= 32
    ensures r.Ok? <==> |ns| % 2 == 0 && |ns| <= 32
    ensures r.Err? && |ns| % 2 == 1 && |ns| <= 33 ==> r.error == StringIndexOutOfBounds(|ns|)
    ensures r.Err? && |ns| >= 34 ==> r.error == ArrayIndexOutOfBounds(FrameLength)
    ensures r.Ok? ==> |r.value| == FrameLength
    ensures r.Ok? ==> forall j :: 0 <= j < NamespaceStart + i / 2 && j < FrameLength ==> r.value[j] == filter[j]
    ensures r.Ok? ==> forall j :: NamespaceStart + |ns| / 2 <= j < FrameLength ==> r.value[j] == filter[j]
    ensures r.Ok? ==> forall k :: i / 2 <= k < |ns| / 2 ==> r.value[NamespaceStart + k] == PairByte(ns[2 * k], ns[2 * k + 1])
    decreases |ns| - i
  {
    if i == |ns| then Ok(filter)
    else if i + 1 >= |ns| then Err(StringIndexOutOfBounds(i + 1))
    else if NamespaceStart + i / 2 >= FrameLength then Err(ArrayIndexOutOfBounds(NamespaceStart + i / 2))
    else FillFrom(ns, i + 2, filter[NamespaceStart + i / 2 := PairByte(ns[i], ns[i + 1])])
  }

  /**
   * `getNamespaceFilter`: an 18-byte service-data value with bytes 0 and 1
   * left zero and the namespace string decoded pairwise into bytes 2 on.
   */
  function NamespaceFilter(ns: string): (r: Result<seq<byte>, Fault>)
    ensures r.Ok? <==> |ns| % 2 == 0 && |ns| <= 32
    ensures |ns| % 2 == 1 && |ns| <= 33 ==> r == Err(StringIndexOutOfBounds(|ns|))
    ensures |ns| >= 34 ==> r == Err(ArrayIndexOutOfBounds(FrameLength))
    ensures r.Ok? ==> |r.value| == FrameLength && r.value[0] == 0 && r.value[1] == 0
    ensures r.Ok? ==> forall k :: 0 <= k < |ns| / 2 ==> r.value[NamespaceStart + k] == PairByte(ns[2 * k], ns[2 * k + 1])
    ensures r.Ok? ==> forall j :: NamespaceStart + |ns| / 2 <= j < FrameLength ==> r.value[j] == 0
  {
    FillFrom(ns, 0, seq(FrameLength, _ => 0))
  }

  /**
   * `getNamespaceIdFromScan`: bytes 2..11 of a frame as 20 lowercase hex
   * digits. Reading past the end of a shorter frame throws at the first
   * missing index.
   */
  function NamespaceIdFromScan(data: seq<byte>): (r: Result<string, Fault>)
    ensures r.Ok? <==> |data| >= InstanceStart
    ensures r.Err? ==> r.error == ArrayIndexOutOfBounds(if |data| < NamespaceStart then NamespaceStart else |data|)
    ensures r.Ok? ==> |r.value| == 20 && forall i :: 0 <= i < 20 ==> IsLowerHexDigit(r.value[i])
    ensures r.Ok? ==> forall k :: 0 <= k < 10 ==>
      16 * Digit(r.value[2 * k]) + Digit(r.value[2 * k + 1]) == data[NamespaceStart + k] as int
  {
    if |data| < InstanceStart then
      Err(ArrayIndexOutOfBounds(if |data| < NamespaceStart then NamespaceStart else |data|))
    else
      var id := FormatBytes(data[NamespaceStart..InstanceStart]);
      assert forall k :: 0 <= k < 10 ==> id[2 * k .. 2 * k + 2] == FormatByte(data[NamespaceStart + k]);
      Ok(id)
  }

  /** A pair of hex digits decoded by the filter builder prints back as the same digits, lowercased. */
  lemma PairByteFormats(hi: char, lo: char)
    requires IsHexDigit(hi) && IsHexDigit(lo)
    ensures FormatByte(PairByte(hi, lo)) == [ToLower(hi), ToLower(lo)]
  {
    var v := PairByte(hi, lo);
    assert v as int == Digit(hi) * 16 + Digit(lo);
    assert v as int / 16 == Digit(hi) && v as int % 16 == Digit(lo);
    NibbleCharOfDigit(hi);
    NibbleCharOfDigit(lo);
  }

  /** The digits printed for namespace pair `k` of a built filter are that pair, lowercased. */
  lemma FilterIdPair(ns: string, k: nat)
    requires |ns| == 20 && IsHexString(ns) && k < 10
    ensures NamespaceFilter(ns).Ok?
    ensures var id := FormatBytes(NamespaceFilter(ns).value[NamespaceStart..InstanceStart]);
      id[2 * k] == ToLower(ns[2 * k]) && id[2 * k + 1] == ToLower(ns[2 * k + 1])
  {
    var bs := NamespaceFilter(ns).value[NamespaceStart..InstanceStart];
    assert bs[k] == PairByte(ns[2 * k], ns[2 * k + 1]);
    assert FormatBytes(bs)[2 * k .. 2 * k + 2] == FormatByte(bs[k]);
    PairByteFormats(ns[2 * k], ns[2 * k + 1]);
  }

  /** Reading the namespace back out of a built filter yields the configured id, lowercased. */
  lemma NamespaceRoundTrip(ns: string)
    requires |ns| == 20 && IsHexString(ns)
    ensures NamespaceFilter(ns).Ok?
    ensures NamespaceIdFromScan(NamespaceFilter(ns).value) == Ok(LowerString(ns))
  {
    var f := NamespaceFilter(ns).value;
    var id := FormatBytes(f[NamespaceStart..InstanceStart]);
    assert NamespaceIdFromScan(f) == Ok(id);
    forall i | 0 <= i < 20
      ensures id[i] == ToLower(ns[i])
    {
      FilterIdPair(ns, i / 2);
      if i % 2 == 0 {
        assert i == 2 * (i / 2);
      } else {
        assert i == 2 * (i / 2) + 1;
      }
    }
    assert id == LowerString(ns);
  }

  /**
   * The masked comparison a (value, mask) service-data filter stands for:
   * the frame is at least as long as the value and agrees with it on every
   * masked bit.
   */
  predicate Matches(frame: seq<byte>, value: seq<byte>, mask: seq<byte>)
    requires |value| == |mask|
  {
    |frame| >= |value| && forall i :: 0 <= i < |mask| ==> BitAnd(frame[i], mask[i]) == BitAnd(value[i], mask[i])
  }

  /** A namespace of at most ten bytes builds a value that lies entirely inside the mask. */
  lemma FilterWithinMask(ns: string)
    requires |ns| % 2 == 0 && |ns| <= 20
    ensures NamespaceFilter(ns).Ok?
    ensures forall i :: 0 <= i < FrameLength ==>
      BitAnd(NamespaceFilter(ns).value[i], NamespaceFilterMask[i]) == NamespaceFilter(ns).value[i]
  {
    var f := NamespaceFilter(ns).value;
    MaskShape();
    forall i | 0 <= i < FrameLength
      ensures BitAnd(f[i], NamespaceFilterMask[i]) == f[i]
    {
      BitAndFullAndEmpty(f[i]);
    }
  }

  /**
   * The builder accepts up to 32 characters, and pairs beyond the tenth land
   * in the instance bytes that the mask ignores.
   */
  lemma LongNamespaceSpillsIntoInstance()
    ensures NamespaceFilter("00000000000000000000ff").Ok?
    ensures NamespaceFilter("00000000000000000000ff").value[InstanceStart] == 0xFF
    ensures BitAnd(NamespaceFilter("00000000000000000000ff").value[InstanceStart], NamespaceFilterMask[InstanceStart]) != 0xFF
  {
    var ns := "00000000000000000000ff";
    assert ns[20] == 'f' && ns[21] == 'f';
    assert PairByte(ns[20], ns[21]) == 0xFF;
    assert NamespaceFilter(ns).value[NamespaceStart + 10] == 0xFF;
  }

  /** Under the namespace mask, matching a value means equal frame type and equal namespace bytes. */
  lemma MaskedMatch(frame: seq<byte>, value: seq<byte>)
    requires |value| == FrameLength
    ensures Matches(frame, value, NamespaceFilterMask) <==>
      && |frame| >= FrameLength
      && frame[0] == value[0]
      && forall i :: NamespaceStart <= i < InstanceStart ==> frame[i] == value[i]
  {
    MaskShape();
    if |frame| >= FrameLength {
      forall i | 0 <= i < FrameLength
        ensures BitAnd(frame[i], NamespaceFilterMask[i]) == (if i == 0 || NamespaceStart <= i < InstanceStart then frame[i] else 0)
        ensures BitAnd(value[i], NamespaceFilterMask[i]) == (if i == 0 || NamespaceStart <= i < InstanceStart then value[i] else 0)
      {
        BitAndFullAndEmpty(frame[i]);
        BitAndFullAndEmpty(value[i]);
      }
    }
  }

  /**
   * Against a 20-character namespace filter, a frame matches exactly when it
   * is a UID frame of at least 18 bytes whose namespace bytes are the decoded
   * namespace; TX power and instance bytes play no part.
   */
  lemma MatchesNamespace(ns: string, frame: seq<byte>)
    requires |ns| == 20
    ensures NamespaceFilter(ns).Ok?
    ensures Matches(frame, NamespaceFilter(ns).value, NamespaceFilterMask) <==>
      && |frame| >= FrameLength
      && frame[0] == TypeUid
      && forall k :: 0 <= k < 10 ==> frame[NamespaceStart + k] == PairByte(ns[2 * k], ns[2 * k + 1])
  {
    var f := NamespaceFilter(ns).value;
    MaskedMatch(frame, f);
    if |frame| >= FrameLength && forall k :: 0 <= k < 10 ==> frame[NamespaceStart + k] == PairByte(ns[2 * k], ns[2 * k + 1]) {
      forall i | NamespaceStart <= i < InstanceStart
        ensures frame[i] == f[i]
      {
        var k := i - NamespaceStart;
        assert frame[NamespaceStart + k] == PairByte(ns[2 * k], ns[2 * k + 1]);
      }
    }
  }

  /** Frames that agree on the frame type and namespace bytes match the same masked filters. */
  lemma MatchIgnoresTxPowerAndInstance(value: seq<byte>, a: seq<byte>, b: seq<byte>)
    requires |value| == FrameLength && |a| == |b| >= FrameLength
    requires a[0] == b[0]
    requires forall i :: NamespaceStart <= i < InstanceStart ==> a[i] == b[i]
    ensures Matches(a, value, NamespaceFilterMask) <==> Matches(b, value, NamespaceFilterMask)
  {
    MaskShape();
    forall i | 0 <= i < FrameLength
      ensures BitAnd(a[i], NamespaceFilterMask[i]) == BitAnd(b[i], NamespaceFilterMask[i])
    {
      BitAndFullAndEmpty(a[i]);
      BitAndFullAndEmpty(b[i]);
    }
  }
}

=== FILE: eddystone_scanner.dfy ===
/**
 * The background scanner service: classifying scan results by Eddystone
 * frame type, and the per-address read/unread tracker behind its
 * "new beacons in range" notification.
 */
module EddystoneScanner {
  import opened Wrappers
  import opened Faults
  import opened Hex
  import opened Android
  import opened EddystoneFrame

  const ActionDismiss := "EddystoneScannerService.ACTION_DISMISS"

  /** `mDetectedBeacons`: each discovered device address and whether the user has seen it. */
  type Tracker = map<string, bool>

  /** The tracker `onCreate` starts from. */
  const EmptyTracker: Tracker := map[]

  function UnreadAddresses(t: Tracker): (u: set<string>)
    ensures u <= t.Keys
  {
    set a | a in t && !t[a]
  }

  lemma SubsetCardinality<T>(a: set<T>, b: set<T>)
    requires a <= b
    ensures |a| <= |b|
  {
    assert b == a + (b - a);
  }

  /** `getUnreadCount`: how many tracked addresses are still unread. */
  function UnreadCount(t: Tracker): (n: nat)
    ensures n <= |t|
    ensures n == 0 <==> forall a :: a in t ==> t[a]
  {
    SubsetCardinality(UnreadAddresses(t), t.Keys);
    assert forall a :: a in t && !t[a] ==> a in UnreadAddresses(t);
    |UnreadAddresses(t)|
  }

  /** The loop of `getUnreadCount`, visiting the tracked entries one at a time. */
  method GetUnreadCount(t: Tracker) returns (count: nat)
    ensures count == UnreadCount(t)
  {
    count := 0;
    var remaining := t.Keys;
    while remaining != {}
      invariant remaining <= t.Keys
      invariant count == |UnreadAddresses(t) - remaining|
      decreases remaining
    {
      var a :| a in remaining;
      var before := UnreadAddresses(t) - remaining;
      remaining := remaining - {a};
      if !t[a] {
        assert UnreadAddresses(t) - remaining == before + {a};
        count := count + 1;
      } else {
        assert UnreadAddresses(t) - remaining == before;
      }
    }
    assert UnreadAddresses(t) - remaining == UnreadAddresses(t);
  }

  /** Tracking a new address as unread raises the unread count by one. */
  lemma UnreadCountAfterInsert(t: Tracker, a: string)
    requires a !in t
    ensures UnreadCount(t[a := false]) == UnreadCount(t) + 1
  {
    assert UnreadAddresses(t[a := false]) == UnreadAddresses(t) + {a};
  }

  /** The tracker after a UID frame, and the count a notification was posted with, if any. */
  datatype UidUpdate = UidUpdate(tracker: Tracker, notification: Option<nat>)

  /**
   * `processUidPacket`: an unseen address is tracked as unread and the
   * notification is posted with the unread count; a known address changes
   * nothing.
   */
  function ProcessUidPacket(t: Tracker, address: string): (u: UidUpdate)
    ensures address in t ==> u == UidUpdate(t, None)
    ensures address !in t ==> u.tracker == t[address := false]
    ensures address !in t ==> u.notification == Some(UnreadCount(t) + 1)
    ensures u.notification.Some? <==> address !in t
    ensures u.tracker.Keys == t.Keys + {address}
    ensures forall a :: a in t ==> a in u.tracker && u.tracker[a] == t[a]
  {
    if address in t then UidUpdate(t, None)
    else
      var t' := t[address := false];
      var unread := UnreadCount(t');
      UnreadCountAfterInsert(t, address);
      UidUpdate(t', if unread > 0 then Some(unread) else None)
  }

  /** Seeing the same address twice notifies on the first sighting only. */
  lemma RecordTwice(t: Tracker, address: string)
    requires address !in t
    ensures ProcessUidPacket(t, address).notification.Some?
    ensures var t' := ProcessUidPacket(t, address).tracker;
      ProcessUidPacket(t', address) == UidUpdate(t', None)
  {
  }

  /** `markAllRead`: every tracked address becomes read; none is added or dropped. */
  function MarkAllRead(t: Tracker): (r: Tracker)
    ensures r.Keys == t.Keys
    ensures forall a :: a in r ==> r[a]
    ensures UnreadCount(r) == 0
  {
    map a | a in t :: true
  }

  /** Marking twice is the same as marking once, and a known address then posts nothing. */
  lemma MarkAllReadSettles(t: Tracker, address: string)
    ensures MarkAllRead(MarkAllRead(t)) == MarkAllRead(t)
    ensures address in t ==> ProcessUidPacket(MarkAllRead(t), address).notification.None?
  {
  }

  /** The service data the platform reports for the Eddystone service UUID, if any. */
  datatype ScanRecord = ScanRecord(eddystoneServiceData: Option<seq<byte>>)

  datatype ScanResult = ScanResult(record: Option<ScanRecord>, deviceAddress: string, rssi: int)

  /** Where `processResult` sends a scan result. */
  datatype Dispatch =
    | InvalidRecord
    | MissingServiceData
    | IgnoredFrame(frameType: byte)
    | UnknownFrame(frameType: byte)
    | UidFrame(deviceAddress: string, rssi: int, packet: seq<byte>)

  /**
   * The frame-type dispatch of `processResult`: results without a record or
   * without Eddystone service data are dropped, UID frames go on to
   * `processUidPacket`, URL and TLM frames are ignored and any other type is
   * logged. Reading the type byte of empty service data throws.
   */
  function Classify(result: ScanResult): (r: Result<Dispatch, Fault>)
    ensures r == Ok(InvalidRecord) <==> result.record.None?
    ensures r == Ok(MissingServiceData) <==> result.record.Some? && result.record.value.eddystoneServiceData.None?
    ensures r.Err? <==> result.record.Some? && result.record.value.eddystoneServiceData == Some([])
    ensures r.Err? ==> r.error == ArrayIndexOutOfBounds(0)
    ensures r.Ok? && r.value.UidFrame? <==>
      result.record.Some? && result.record.value.eddystoneServiceData.Some?
      && |result.record.value.eddystoneServiceData.value| > 0
      && result.record.value.eddystoneServiceData.value[0] == TypeUid
    ensures r.Ok? && r.value.UidFrame? ==>
      r.value == UidFrame(result.deviceAddress, result.rssi, result.record.value.eddystoneServiceData.value)
    ensures r.Ok? && r.value.IgnoredFrame? ==> r.value.frameType in {TypeUrl, TypeTlm}
    ensures r.Ok? && r.value.UnknownFrame? ==> r.value.frameType !in {TypeUid, TypeUrl, TypeTlm}
    ensures result.record.Some? && result.record.value.eddystoneServiceData.Some?
      && |result.record.value.eddystoneServiceData.value| > 0
      && result.record.value.eddystoneServiceData.value[0] != TypeUid
      ==> var frameType := result.record.value.eddystoneServiceData.value[0];
        r == Ok(if frameType == TypeUrl || frameType == TypeTlm then IgnoredFrame(frameType) else UnknownFrame(frameType))
  {
    match result.record
    case None => Ok(InvalidRecord)
    case Some(record) =>
      match record.eddystoneServiceData
      case None => Ok(MissingServiceData)
      case Some(data) =>
        if |data| == 0 then Err(ArrayIndexOutOfBounds(0))
        else
          var frameType := data[0];
          if frameType == TypeUid then Ok(UidFrame(result.deviceAddress, result.rssi, data))
          else if frameType == TypeTlm || frameType == TypeUrl then Ok(IgnoredFrame(frameType))
          else Ok(UnknownFrame(frameType))
  }

  /** One scan result taken through dispatch and, for a UID frame, the tracker update. */
  function ProcessResult(t: Tracker, result: ScanResult): (r: Result<UidUpdate, Fault>)
    ensures r.Err? <==> Classify(result).Err?
    ensures r.Err? ==> r.error == Classify(result).error
    ensures r.Ok? && !Classify(result).value.UidFrame? ==> r.value == UidUpdate(t, None)
    ensures r.Ok? && Classify(result).value.UidFrame? ==> r.value == ProcessUidPacket(t, result.deviceAddress)
  {
    var dispatch :- Classify(result);
    if dispatch.UidFrame? then Ok(ProcessUidPacket(t, dispatch.deviceAddress)) else Ok(UidUpdate(t, None))
  }

  /** The tracker and posted notifications after a batch, and the fault that cut it short, if any. */
  datatype BatchOutcome = BatchOutcome(tracker: Tracker, notifications: seq<nat>, fault: Option<Fault>)

  /**
   * `onBatchScanResults`: results are handled in order, each UID update
   * running in turn on the main thread. A fault stops the batch. Keeping the
   * updates of the results before it is this model's choice: on a device the
   * exception escapes the scan callback and ends the process.
   */
  function ProcessBatch(t: Tracker, results: seq<ScanResult>): (o: BatchOutcome)
    ensures o.fault.None? <==> forall i :: 0 <= i < |results| ==> Classify(results[i]).Ok?
    ensures t.Keys <= o.tracker.Keys
    ensures forall a :: a in t ==> o.tracker[a] == t[a]
    ensures |o.tracker| == |t| + |o.notifications|
    ensures forall i :: 0 <= i < |o.notifications| ==> o.notifications[i] >= 1
    decreases |results|
  {
    if |results| == 0 then BatchOutcome(t, [], None)
    else
      match ProcessResult(t, results[0])
      case Err(fault) => BatchOutcome(t, [], Some(fault))
      case Ok(update) =>
        var rest := ProcessBatch(update.tracker, results[1..]);
        match update.notification
        case None => rest
        case Some(count) => BatchOutcome(rest.tracker, [count] + rest.notifications, rest.fault)
  }

  /** The device addresses of the UID frames among `results`. */
  function UidAddresses(results: seq<ScanResult>): set<string>
  {
    set i | 0 <= i < |results| && Classify(results[i]).Ok? && Classify(results[i]).value.UidFrame? :: results[i].deviceAddress
  }

  /** The UID addresses of a batch are those of its first result and those of the rest. */
  lemma UidAddressesCons(results: seq<ScanResult>)
    requires |results| > 0
    ensures var first := Classify(results[0]);
      UidAddresses(results)
        == (if first.Ok? && first.value.UidFrame? then {results[0].deviceAddress} else {}) + UidAddresses(results[1..])
  {
    var first := Classify(results[0]);
    var head: set<string> := if first.Ok? && first.value.UidFrame? then {results[0].deviceAddress} else {};
    forall a | a in UidAddresses(results) ensures a in head + UidAddresses(results[1..]) {
      var i :| 0 <= i < |results| && Classify(results[i]).Ok? && Classify(results[i]).value.UidFrame? && results[i].deviceAddress == a;
      if i > 0 {
        assert results[1..][i - 1] == results[i];
      }
    }
    forall a | a in UidAddresses(results[1..]) ensures a in UidAddresses(results) {
      var i :| 0 <= i < |results[1..]| && Classify(results[1..][i]).Ok? && Classify(results[1..][i]).value.UidFrame? && results[1..][i].deviceAddress == a;
      assert results[i + 1] == results[1..][i];
    }
  }

  /** A result that can be classified adds its address to the tracker exactly when it is a UID frame. */
  lemma ResultTracksUidAddress(t: Tracker, result: ScanResult)
    requires Classify(result).Ok?
    ensures ProcessResult(t, result).Ok?
    ensures var first := Classify(result).value;
      ProcessResult(t, result).value.tracker.Keys == t.Keys + (if first.UidFrame? then {result.deviceAddress} else {})
  {
  }

  /** A batch without a fault continues from the tracker its first result leaves. */
  lemma BatchCons(t: Tracker, results: seq<ScanResult>)
    requires |results| > 0 && ProcessBatch(t, results).fault.None?
    ensures ProcessResult(t, results[0]).Ok?
    ensures var rest := ProcessBatch(ProcessResult(t, results[0]).value.tracker, results[1..]);
      rest.fault.None? && ProcessBatch(t, results).tracker == rest.tracker
  {
  }

  /** Set algebra for one step of a batch: what is known, plus one step's addresses, plus the rest's. */
  lemma UnionSteps<T>(known: set<T>, step: set<T>, afterStep: set<T>, restAddresses: set<T>, all: set<T>, final: set<T>)
    requires afterStep == known + step && all == step + restAddresses && final == afterStep + restAddresses
    ensures final == known + all
  {
  }

  /** A batch without a fault tracks exactly the addresses already known and those of its UID frames. */
  lemma {:induction false} BatchTracksUidAddresses(t: Tracker, results: seq<ScanResult>)
    ensures ProcessBatch(t, results).fault.None? ==> ProcessBatch(t, results).tracker.Keys == t.Keys + UidAddresses(results)
    decreases |results|
  {
    if |results| > 0 && ProcessBatch(t, results).fault.None? {
      BatchCons(t, results);
      ResultTracksUidAddress(t, results[0]);
      var first := Classify(results[0]).value;
      var update := ProcessResult(t, results[0]).value;
      BatchTracksUidAddresses(update.tracker, results[1..]);
      UidAddressesCons(results);
      UnionSteps(t.Keys, if first.UidFrame? then {results[0].deviceAddress} else {},
        update.tracker.Keys, UidAddresses(results[1..]), UidAddresses(results),
        ProcessBatch(t, results).tracker.Keys);
    }
  }

  /**
   * Every address a batch starts tracking is unread, and the `k`-th
   * notification posts the unread count of the tracker it started from plus
   * `k + 1`: each new address raises the count by one.
   */
  lemma {:induction false} BatchPostsUnreadCounts(t: Tracker, results: seq<ScanResult>)
    ensures var o := ProcessBatch(t, results);
      forall a :: a in o.tracker && a !in t ==> !o.tracker[a]
    ensures var o := ProcessBatch(t, results);
      forall k :: 0 <= k < |o.notifications| ==> o.notifications[k] == UnreadCount(t) + k + 1
    decreases |results|
  {
    if |results| > 0 && ProcessResult(t, results[0]).Ok? {
      var update := ProcessResult(t, results[0]).value;
      var rest := ProcessBatch(update.tracker, results[1..]);
      BatchPostsUnreadCounts(update.tracker, results[1..]);
      BatchStep(t, results);
      if update.notification.Some? {
        var address :| update.tracker == t[address := false] && address !in t;
        UnreadCountAfterInsert(t, address);
        assert UnreadCount(update.tracker) == UnreadCount(t) + 1;
      }
    }
  }

  /** A batch whose first result is handled continues from the tracker that result leaves. */
  lemma BatchStep(t: Tracker, results: seq<ScanResult>)
    requires |results| > 0 && ProcessResult(t, results[0]).Ok?
    ensures var update := ProcessResult(t, results[0]).value;
      var rest := ProcessBatch(update.tracker, results[1..]);
      && ProcessBatch(t, results).tracker == rest.tracker
      && (update.notification.None? ==> update.tracker == t && ProcessBatch(t, results).notifications == rest.notifications)
      && (update.notification.Some? ==>
        && ProcessBatch(t, results).notifications == [update.notification.value] + rest.notifications
        && update.notification.value == UnreadCount(t) + 1
        && exists address :: address !in t && update.tracker == t[address := false])
  {
  }

  /** A faulting batch reports the fault of its first result that cannot be classified. */
  lemma {:induction false} BatchStopsAtFirstFault(t: Tracker, results: seq<ScanResult>)
    ensures ProcessBatch(t, results).fault.Some? ==>
      exists j :: 0 <= j < |results|
        && (forall k :: 0 <= k < j ==> Classify(results[k]).Ok?)
        && Classify(results[j]) == Err(ProcessBatch(t, results).fault.value)
    decreases |results|
  {
    if |results| > 0 && ProcessBatch(t, results).fault.Some? {
      var fault := ProcessBatch(t, results).fault.value;
      var update := ProcessResult(t, results[0]);
      if update.Err? {
        assert Classify(results[0]) == Err(fault);
      } else {
        var rest := results[1..];
        BatchStopsAtFirstFault(update.value.tracker, rest);
        assert ProcessBatch(update.value.tracker, rest).fault == Some(fault);
        var j :| 0 <= j < |rest| && (forall k :: 0 <= k < j ==> Classify(rest[k]).Ok?) && Classify(rest[j]) == Err(fault);
        assert results[j + 1] == rest[j];
        assert forall k :: 0 <= k < j + 1 ==> Classify(results[k]).Ok? by {
          forall k | 0 <= k < j + 1 ensures Classify(results[k]).Ok? {
            if k > 0 { assert results[k] == rest[k - 1]; }
          }
        }
      }
    }
  }

  /**
   * `onStartCommand`: the dismiss action marks every tracked address read
   * and hides the notification; any other action changes nothing. A null
   * intent throws on `getAction`.
   */
  function OnStartCommand(t: Tracker, intent: Option<Intent>): (r: Result<(Tracker, seq<Effect>), Fault>)
    ensures r.Err? <==> intent.None?
    ensures r.Err? ==> r.error == NullPointer
    ensures r.Ok? && HasAction(intent.value, ActionDismiss) ==> r.value == (MarkAllRead(t), [CancelNotification])
    ensures r.Ok? && !HasAction(intent.value, ActionDismiss) ==> r.value == (t, [])
    ensures r.Ok? ==> r.value.0.Keys == t.Keys
  {
    match intent
    case None => Err(NullPointer)
    case Some(i) =>
      if HasAction(i, ActionDismiss) then Ok((MarkAllRead(t), [CancelNotification])) else Ok((t, []))
  }
}

=== FILE: hex.dfy ===
/**
 * Bytes and hexadecimal digits as the Java code sees them: a `byte` is an
 * 8-bit pattern, `(byte)` keeps the low eight bits of an `int`,
 * `Character.digit(c, 16)` yields a digit value or -1, and `"%02x"` prints a
 * byte as two lowercase digits of its unsigned value.
 */
module Hex {

  /** A Java `byte`, held as its unsigned bit pattern. */
  newtype byte = x: int | 0 <= x < 256

  /** Java's `&` on two bytes, bit by bit from the least significant end. */
  function BitAnd(a: byte, b: byte): (r: byte)
    ensures r <= a && r <= b
    decreases a
  {
    if a == 0 || b == 0 then 0
    else
      var high := BitAnd(a / 2, b / 2) as int;
      var low := if a % 2 == 1 && b % 2 == 1 then 1 else 0;
      (2 * high + low) as byte
  }

  /** `m` is a run of one bits: 0, 1, 3, 7, ..., 255. */
  predicate AllOnes(m: byte)
    decreases m
  {
    m == 0 || (m % 2 == 1 && AllOnes(m / 2))
  }

  /** Masking with a run of ones at least as wide as `a` keeps `a`. */
  lemma {:induction false} BitAndAllOnes(a: byte, m: byte)
    requires AllOnes(m) && a <= m
    ensures BitAnd(a, m) == a
    decreases m
  {
    if a != 0 && m != 0 {
      BitAndAllOnes(a / 2, m / 2);
    }
  }

  /** `b & 0xFF == b` and `b & 0x00 == 0`. */
  lemma BitAndFullAndEmpty(b: byte)
    ensures BitAnd(b, 0xFF) == b
    ensures BitAnd(b, 0x00) == 0
  {
    assert AllOnes(0x01);
    assert AllOnes(0x03);
    assert AllOnes(0x07);
    assert AllOnes(0x0F);
    assert AllOnes(0x1F);
    assert AllOnes(0x3F);
    assert AllOnes(0x7F);
    assert AllOnes(0xFF);
    BitAndAllOnes(b, 0xFF);
  }

  predicate IsHexDigit(c: char) {
    '0' <= c <= '9' || 'a' <= c <= 'f' || 'A' <= c <= 'F'
  }

  predicate IsLowerHexDigit(c: char) {
    '0' <= c <= '9' || 'a' <= c <= 'f'
  }

  predicate IsHexString(s: string) {
    forall i :: 0 <= i < |s| ==> IsHexDigit(s[i])
  }

  /** `Character.digit(c, 16)` over ASCII: the digit's value, or -1 for any other character. */
  function Digit(c: char): (d: int)
    ensures -1 <= d < 16
    ensures d == -1 <==> !IsHexDigit(c)
  {
    if '0' <= c <= '9' then c as int - '0' as int
    else if 'a' <= c <= 'f' then c as int - 'a' as int + 10
    else if 'A' <= c <= 'F' then c as int - 'A' as int + 10
    else -1
  }

  /** The lowercase digit `%x` prints for a nibble; `Digit` reads it back. */
  function NibbleChar(n: int): (c: char)
    requires 0 <= n < 16
    ensures IsLowerHexDigit(c)
    ensures Digit(c) == n
  {
    if n < 10 then ('0' as int + n) as char else ('a' as int + n - 10) as char
  }

  /** `Character.toLowerCase` restricted to ASCII letters. */
  function ToLower(c: char): (r: char)
    ensures 'A' <= c <= 'Z' ==> r as int == c as int + 32
    ensures !('A' <= c <= 'Z') ==> r == c
  {
    if 'A' <= c <= 'Z' then (c as int + 32) as char else c
  }

  function LowerString(s: string): (r: string)
    ensures |r| == |s|
    ensures forall i :: 0 <= i < |s| ==> r[i] == ToLower(s[i])
  {
    seq(|s|, i requires 0 <= i < |s| => ToLower(s[i]))
  }

  /** A hex digit prints back as its own lowercase form. */
  lemma NibbleCharOfDigit(c: char)
    requires IsHexDigit(c)
    ensures NibbleChar(Digit(c)) == ToLower(c)
  {
  }

  /** The Java narrowing cast `(byte) x`: the low eight bits of `x`. */
  function ToByte(x: int): (b: byte)
    ensures 0 <= x < 256 ==> b as int == x
    ensures (b as int - x) % 256 == 0
  {
    (x % 256) as byte
  }

  /** `String.format("%02x", b)`: two lowercase digits of the unsigned value of `b`. */
  function FormatByte(b: byte): (s: string)
    ensures |s| == 2
    ensures IsLowerHexDigit(s[0]) && IsLowerHexDigit(s[1])
    ensures 16 * Digit(s[0]) + Digit(s[1]) == b as int
  {
    [NibbleChar(b as int / 16), NibbleChar(b as int % 16)]
  }

  /** The concatenated `%02x` renderings of a byte sequence, in order. */
  function FormatBytes(bs: seq<byte>): (s: string)
    ensures |s| == 2 * |bs|
    ensures forall i :: 0 <= i < |s| ==> IsLowerHexDigit(s[i])
    ensures forall k :: 0 <= k < |bs| ==> s[2 * k .. 2 * k + 2] == FormatByte(bs[k])
  {
    seq(2 * |bs|, i requires 0 <= i < 2 * |bs| => FormatByte(bs[i / 2])[i % 2])
  }
}

=== FILE: json.dfy ===
/**
 * JSON values as a tree, with the `org.json` accessors the services call.
 * Each accessor either yields the value or reports the `JSONException` it
 * would throw.
 */
module JsonTree {
  import opened Wrappers

  datatype Json =
    | Null
    | Bool(b: bool)
    | Number(literal: string)
    | Str(s: string)
    | Array(items: seq<Json>)
    | Object(fields: map<string, Json>)

  /** Why an accessor throws `JSONException`. */
  datatype JsonError =
    | NotAnObject
    | MissingKey(key: string)
    | TypeMismatch(key: string)
    | IndexOutOfRange(index: int)
    | ElementNotObject(index: int)

  /** `new JSONObject(text)` on already-parsed text: only an object is accepted. */
  function AsObject(j: Json): (r: Result<map<string, Json>, JsonError>)
    ensures r.Ok? <==> j.Object?
    ensures r.Ok? ==> r.value == j.fields
  {
    if j.Object? then Ok(j.fields) else Err(NotAnObject)
  }

  /** `JSONObject.getJSONArray(key)`. */
  function GetArray(o: map<string, Json>, key: string): (r: Result<seq<Json>, JsonError>)
    ensures r.Ok? <==> key in o && o[key].Array?
    ensures r.Ok? ==> r.value == o[key].items
    ensures key !in o ==> r == Err(MissingKey(key))
  {
    if key !in o then Err(MissingKey(key))
    else if o[key].Array? then Ok(o[key].items)
    else Err(TypeMismatch(key))
  }

  /** `JSONArray.getJSONObject(index)`. */
  function GetObjectAt(items: seq<Json>, index: int): (r: Result<map<string, Json>, JsonError>)
    ensures r.Ok? <==> 0 <= index < |items| && items[index].Object?
    ensures r.Ok? ==> r.value == items[index].fields
    ensures !(0 <= index < |items|) ==> r == Err(IndexOutOfRange(index))
  {
    if !(0 <= index < |items|) then Err(IndexOutOfRange(index))
    else if items[index].Object? then Ok(items[index].fields)
    else Err(ElementNotObject(index))
  }

  /** `JSONObject.getString(key)` for a value that is a JSON string. */
  function GetString(o: map<string, Json>, key: string): (r: Result<string, JsonError>)
    ensures r.Ok? <==> key in o && o[key].Str?
    ensures r.Ok? ==> r.value == o[key].s
    ensures key !in o ==> r == Err(MissingKey(key))
  {
    if key !in o then Err(MissingKey(key))
    else if o[key].Str? then Ok(o[key].s)
    else Err(TypeMismatch(key))
  }
}

=== FILE: offer_beacon.dfy ===
/**
 * The offer carried by a Nearby message: a validated value with a section
 * and an offer text, equal to another offer exactly when the sections are.
 */
module OfferBeacons {
  import opened Wrappers
  import opened JsonTree

  const OfferType := "offer"

  /** A Nearby message: its type, and its content once parsed as JSON (`None` when the text is not JSON). */
  datatype Message = Message(msgType: string, content: Option<Json>)

  datatype OfferBeacon = OfferBeacon(section: string, offer: string)

  /** Why the constructor throws `IllegalArgumentException`. */
  datatype OfferError = IncorrectType(msgType: string) | InvalidJsonContents

  /** The fields of a message's content, when the content is a JSON object. */
  function ContentFields(m: Message): Option<map<string, Json>>
  {
    if m.content.Some? && m.content.value.Object? then Some(m.content.value.fields) else None
  }

  /** The string under `key` in a message's content, if there is one. */
  function ContentString(m: Message, key: string): Option<string>
  {
    var fields := ContentFields(m);
    if fields.Some? && key in fields.value && fields.value[key].Str? then Some(fields.value[key].s) else None
  }

  /**
   * The `OfferBeacon(Message)` constructor: a message of any other type is
   * rejected, and `section` and `offer` are read from the content's
   * `"section"` and `"latest_offer"` strings; content that is not such an
   * object is rejected as invalid JSON.
   */
  function FromMessage(m: Message): (r: Result<OfferBeacon, OfferError>)
    ensures m.msgType != OfferType ==> r == Err(IncorrectType(m.msgType))
    ensures m.msgType == OfferType && (ContentString(m, "section").None? || ContentString(m, "latest_offer").None?)
      ==> r == Err(InvalidJsonContents)
    ensures r.Ok? <==> m.msgType == OfferType && ContentString(m, "section").Some? && ContentString(m, "latest_offer").Some?
    ensures r.Ok? ==> Some(r.value.section) == ContentString(m, "section")
    ensures r.Ok? ==> Some(r.value.offer) == ContentString(m, "latest_offer")
  {
    if m.msgType != OfferType then Err(IncorrectType(m.msgType))
    else
      match m.content
      case None => Err(InvalidJsonContents)
      case Some(json) =>
        match AsObject(json)
        case Err(_) => Err(InvalidJsonContents)
        case Ok(parsed) =>
          match GetString(parsed, "section")
          case Err(_) => Err(InvalidJsonContents)
          case Ok(section) =>
            match GetString(parsed, "latest_offer")
            case Err(_) => Err(InvalidJsonContents)
            case Ok(offer) => Ok(OfferBeacon(section, offer))
  }

  /** The message an offer beacon publishes: type "offer", content `{"section": ..., "latest_offer": ...}`. */
  function ToMessage(b: OfferBeacon): Message
  {
    Message(OfferType, Some(Object(map["section" := Str(b.section), "latest_offer" := Str(b.offer)])))
  }

  /** Reading a published offer back gives the same offer. */
  lemma MessageRoundTrip(b: OfferBeacon)
    ensures FromMessage(ToMessage(b)) == Ok(b)
  {
    assert ContentString(ToMessage(b), "section") == Some(b.section);
    assert ContentString(ToMessage(b), "latest_offer") == Some(b.offer);
  }

  /**
   * `equals(Object)`: true exactly for another offer with an equal section.
   * `None` stands for `null` and for any object that is not an offer.
   */
  function Equals(self: OfferBeacon, other: Option<OfferBeacon>): (r: bool)
    ensures r ==> other.Some? && other.value.section == self.section
    ensures other.Some? && other.value.section == self.section ==> r
  {
    match other
    case None => false
    case Some(that) => that.section == self.section
  }

  /** `toString`: the section, as the message the offer publishes carries it. */
  function ToString(b: OfferBeacon): (s: string)
    ensures ContentString(ToMessage(b), "section") == Some(s)
  {
    b.section
  }

  /** Two offers are equal exactly when they print the same, whatever their offer texts. */
  lemma EqualsAgreesWithToString(a: OfferBeacon, b: OfferBeacon)
    ensures Equals(a, Some(b)) <==> ToString(a) == ToString(b)
    ensures Equals(a, Some(b)) ==> Equals(a, Some(OfferBeacon(b.section, a.offer)))
  {
  }

  /** `equals` is an equivalence relation on offers. */
  lemma EqualsIsEquivalence(a: OfferBeacon, b: OfferBeacon, c: OfferBeacon)
    ensures Equals(a, Some(a))
    ensures Equals(a, Some(b)) <==> Equals(b, Some(a))
    ensures Equals(a, Some(b)) && Equals(b, Some(c)) ==> Equals(a, Some(c))
  {
  }
}

=== FILE: wrappers.dfy ===
/** Failure-compatible wrappers shared by every module of the model. */
module Wrappers {

  /** A value that may be absent: Java's `null`, or a lookup that found nothing. */
  datatype Option<+T> = None | Some(value: T)

  /** The outcome of an operation that may throw: a value, or the exception it raised. */
  datatype Result<+T, +E> = Ok(value: T) | Err(error: E) {

    predicate IsFailure() {
      Err?
    }

    function PropagateFailure<U>(): Result<U, E>
      requires Err?
    {
      Err(error)
    }

    function Extract(): T
      requires Ok?
    {
      value
    }

    function MapFailure<E2>(f: E -> E2): Result<T, E2>
    {
      match this
      case Ok(v) => Ok(v)
      case Err(e) => Err(f(e))
    }
  }
}

/** The unchecked Java runtime exceptions the modelled code can raise. */
module Faults {

  datatype Fault =
    | StringIndexOutOfBounds(index: int)
    | ArrayIndexOutOfBounds(index: int)
    | NullPointer
    | IllegalArgument(message: string)
}
